=== FILE: README.md ===
# Pinktagram client rules in Dafny

This project models the pure decision and state-update rules inside the event
handlers of the Pinktagram React client, a social app over a REST backend. Each
handler becomes a total function over immutable datatypes. The outcome of every
awaited backend call is an input datatype:

- `Call = Ok | Fail(HttpError)` when the handler ignores the response body;
- `Fetch<T> = Fetched(value) | FetchFailed(error)` when it reads the body.

Like, save and follow flags therefore change only on the `Ok` path. A handler
that reloads from the server instead of updating locally leaves the local state
unchanged.

Modules, one per source file plus shared pieces:

- `Js`: the JavaScript semantics the handlers rely on:
  - JSON scalars (`Value`) and objects (`Obj`);
  - truthiness;
  - `String(x)` on the values the handlers stringify, integers among them (see "## Left out" for the range of numbers covered);
  - the two id comparisons (`===` and `String(a) === String(b)`);
  - `String.prototype.trim` with the ECMAScript white-space set;
  - `startsWith`.
- `Outcomes`: call outcomes, error-text precedence, the upload answer and the picture checks shared by the profile page and the profile editor.
- `Entities`: the comment and post records.
- `Badge`: the unread badge (Messages and Search pages).
- `TimeUtils` (`src/utils/timeUtils.js`): both relative-time formatters. The elapsed milliseconds are an input; locale-formatted text is a bucket.
- `CommentsModal`: the comment-tree builder, `getText`, the comment submit and the Reply toggle.
- `Messages`: the poll step, the one-time selection from navigation state, the send guard and avatar grouping.
- `StoryModal`: the story viewer's index machine, like counter, comment append and progress bar.
- `Profile`: like and save updates on the three post lists and the open post, the follow counter, the tab choice and the picture check.
- `Home`: the saved-posts map, the two preview comments, like, double tap, save with its 409 rule, and the comments link.
- `App`: startup session validation, login and logout, and the route table.
- `Search`: the query guard, the bio preview and the results panel.
- `CreatePostModal`: file choice, crop completion and submit.
- `EditProfileModal`: the form, file choice, crop completion and submit.

`buildTree` is modelled twice:

- A reference definition: the root list and each children list are order-preserving selections of the pushed nodes (`RootsUpTo`, `ChildrenUpTo`).
- A two-pass method over immutable maps (`BuildTree`), with its loops proved against that reference.

Nodes are keyed by `String(id)`, as JavaScript object keys are.

## Model

| member | source | states |
|---|---|---|
| Js.Trim | src/components/CommentsModal.jsx:37 | the result is the input with white space cut from both ends only: a slice bordered by white-space runs, neither starting nor ending with white space, and empty exactly when the input is all white space |
| Js.LooseIdEqAcrossTypes | src/pages/Messages.jsx:34-35 | a numeric id and its decimal string are the same user under `String(a) === String(b)` but different under `===` |
| Js.LooseIdEqOnNumbers | src/pages/Messages.jsx:100 | on two numbers the string comparison is numeric equality |
| Js.IntToStringInjective | src/pages/Messages.jsx:100 | two integers with the same decimal rendering are equal |
| Outcomes.FirstNonEmpty | src/components/CommentsModal.jsx:33 | the result of an `a \|\| b \|\| c` chain of texts: empty iff every option is empty, otherwise the first non-empty option |
| Outcomes.ErrorText | src/components/CreatePostModal.jsx:108 | the response body's message, else the error's own message, else the handler's default |
| Outcomes.UploadRejected | src/components/CreatePostModal.jsx:84-86 | the error thrown for an unsuccessful upload carries no response and has the server's message, or "Upload failed" when that is empty |
| Outcomes.UploadRejectedText | src/components/EditProfileModal.jsx:71-73 | a rejected upload always shows a non-empty text, the server's message or "Upload failed", and never the handler's default |
| Outcomes.ImageProblem | src/pages/Profile.jsx:240-247 | a picture is accepted iff its MIME type starts with `image/` and it is at most 10 MiB; a non-image gets the type message even when it is also too large |
| Outcomes.TypeCheckedBeforeSize | src/components/EditProfileModal.jsx:23-32 | an oversized video is refused for its type, an oversized image for its size, and a 10 MiB image passes |
| Badge.Label | src/pages/Messages.jsx:602 | "9+" exactly when the count exceeds 9, otherwise the count in decimal |
| Badge.Badge | src/pages/Search.jsx:66-84 | no badge iff the count is not positive; otherwise the label |
| Badge.BadgeAppearsAndDisappears | src/pages/Messages.jsx:586-602 | 3 shows "3", 12 shows "9+", and 0 shows nothing |
| TimeUtils.FormatTimeAgo | src/utils/timeUtils.js:5-32 | for the floored seconds `s`, exactly one bucket applies: "Just now" for `s < 60` (future dates included), then minutes, hours, days and weeks by the thresholds 3600, 86400, 604800 and 2419200, each showing `floor(s / unit)` in 1..59, 1..23, 1..6 and 1..3; four weeks or more, and an unparsable date, give the calendar date |
| TimeUtils.TimeAgoBuckets | src/utils/timeUtils.js:11-27 | the source's chained floors (`/60`, `/60`, `/24`, `/7`) are floors of the seconds by one unit, and each `< 60`, `< 24`, `< 7`, `< 4` test is the matching seconds threshold |
| TimeUtils.TimeAgoMonotone | src/utils/timeUtils.js:7-32 | a larger difference never lands in a more recent bucket, and within one bucket never shows a smaller number |
| TimeUtils.TimeAgoText | src/utils/timeUtils.js:7-32 | "Just now" for the first bucket, the calendar text for the last; a relative bucket shows its number in decimal, then its unit letter (`m`, `h`, `d`, `w`), then " ago" |
| TimeUtils.TimeAgoTextInjective | src/utils/timeUtils.js:13-28 | two relative buckets that show the same text are the same bucket with the same number |
| TimeUtils.FormatMessageTime | src/utils/timeUtils.js:39-48 | "Just now" below 3,600,000 ms, time of day below 86,400,000, "Yesterday" below 172,800,000, the date otherwise and for an unparsable date |
| TimeUtils.MessageTimeMonotone | src/utils/timeUtils.js:41-48 | a larger difference never lands in a more recent message bucket |
| CommentsModal.NodeMapKeys | src/components/CommentsModal.jsx:75 | after the first pass over a prefix, the node map's keys are exactly the `String(id)`s of the comments in it |
| CommentsModal.NodeMapIdentity | src/components/CommentsModal.jsx:75 | with distinct ids, the node stored under a comment's key is that comment with all its fields |
| CommentsModal.NodesAreComments | src/components/CommentsModal.jsx:75-78 | with distinct ids, the node the second pass pushes for each position is the input comment there |
| CommentsModal.IndexNodes | src/components/CommentsModal.jsx:73-75 | the first pass yields the node map and an empty children list for exactly the keys of the input |
| CommentsModal.LinkOne | src/components/CommentsModal.jsx:77-81 | one iteration of the second pass moves the forest from its reference value after `i` comments to its reference value after `i + 1` |
| CommentsModal.RootsStep | src/components/CommentsModal.jsx:77-81 | a comment extends the root list by its node exactly when it does not attach to a parent |
| CommentsModal.ChildrenStep | src/components/CommentsModal.jsx:77-78 | a comment extends the children list of key `k` by its node exactly when it attaches and its `String(parent_id)` is `k`; other lists are unchanged |
| CommentsModal.LinkNodes | src/components/CommentsModal.jsx:76-82 | the second pass ends with the reference root list and, for every key, the reference children list |
| CommentsModal.BuildTree | src/components/CommentsModal.jsx:72-84 | `buildTree` yields the comments that do not attach as roots and, under every key, the comments that attach to it, each in input order |
| CommentsModal.PlacedExactlyOnce | src/components/CommentsModal.jsx:75-82 | with distinct ids, a comment whose `parent_id` is truthy and names a comment of the list occurs once in its parent's children and not among the roots; any other comment occurs once among the roots; no comment is in any other children list |
| CommentsModal.OrphanBecomesRoot | src/components/CommentsModal.jsx:77-81 | a reply whose parent is not in the list is kept, as a root |
| CommentsModal.ForestDrawnFromInput | src/components/CommentsModal.jsx:75-82 | every node of the root list and of every children list is a comment of the input |
| CommentsModal.RootsKeepInputOrder | src/components/CommentsModal.jsx:76-82 | the root list is the input's subsequence at the strictly increasing positions of the non-attaching comments |
| CommentsModal.ChildrenKeepInputOrder | src/components/CommentsModal.jsx:76-82 | every children list is the input's subsequence at the strictly increasing positions of the replies to that node |
| CommentsModal.LeafIffNoReplies | src/components/CommentsModal.jsx:75 | a node's children list is empty iff no comment of the list attaches to it |
| CommentsModal.AllDrawn | src/components/CommentsModal.jsx:72-84 | with distinct ids and parent links that form no cycle (a rank falling from every attached reply to its parent), every comment is drawn: it is a root or in the children list of a drawn comment, at most its rank levels deep |
| CommentsModal.SelfReplyHidden | src/components/CommentsModal.jsx:77-81 | a comment whose `parent_id` is its own id is not a root and sits only in its own children list, so it is never drawn |
| CommentsModal.GetText | src/components/CommentsModal.jsx:33 | `comment` if non-empty, else `content` if non-empty, else `text` (possibly empty) |
| CommentsModal.SubmitRequest | src/components/CommentsModal.jsx:37-47 | no request iff the draft is all white space; otherwise the post id, the user id, the trimmed non-empty text and `parent_id` equal to the reply target's id or null |
| CommentsModal.Submit | src/components/CommentsModal.jsx:35-58 | a blank draft changes nothing; a created comment clears the draft and the reply target; a failure keeps both |
| CommentsModal.ToggleReply | src/components/CommentsModal.jsx:178-180 | Reply on the targeted comment (`replyTo?.id === comment.id`) clears the target; on any other comment it targets that one with its id and username |
| CommentsModal.ReplyTwiceCancels | src/components/CommentsModal.jsx:178-180 | pressing Reply twice on a comment that was not the target leaves no target |
| Messages.LoadMessages | src/pages/Messages.jsx:91-123 | without a selected conversation or on a failed fetch, nothing changes and no sound plays; after a fetch, the transcript and the previous count become the fetched list and its length (also when it shrank); the sound plays iff the count grew from a positive previous count and the last message's sender is not the viewer by string comparison |
| Messages.FirstFetchNeverNotifies | src/pages/Messages.jsx:98 | the first fetch after the page mounts (previous count 0, line 18) never notifies |
| Messages.CountCarriesAcrossSwitch | src/pages/Messages.jsx:91-111 | the count is not reset when another conversation is selected (lines 38, 61 and 247 only set the selection): after one conversation's fetch, the next conversation's first fetch notifies iff it is longer and ends with the other user's message |
| Messages.SameCountNeverNotifies | src/pages/Messages.jsx:98 | a fetch with no more messages than last time never notifies |
| Messages.TwoFetches | src/pages/Messages.jsx:98-111 | a first fetch is silent; a second one with one extra message notifies iff that message is not the viewer's, and the count becomes the new length |
| Messages.FindByUser | src/pages/Messages.jsx:35 | `find` by string-equal `other_user_id`: none iff no conversation matches; otherwise the first matching conversation |
| Messages.NavStep | src/pages/Messages.jsx:26-43 | nothing while loading or once handled, or without a truthy `selectedUserId`; otherwise the effect marks itself handled and selects the matching conversation, or creates one with that user |
| Messages.NavActsAtMostOnce | src/pages/Messages.jsx:28-33 | once the effect has acted, no later run acts, whatever the loading flag, navigation state and list |
| Messages.CreateThenSelect | src/pages/Messages.jsx:54-89 | a failed create or reload selects nothing and leaves the sidebar list unchanged; after both succeed, the list becomes the reloaded one (a reply without a `conversations` field gives the empty list) and the selection is its first conversation that string-matches the user |
| Messages.SendMessage | src/pages/Messages.jsx:135-155 | nothing is sent iff the draft is blank or no conversation is open; the draft is sent untrimmed to the conversation's other user; after a send it becomes empty on success and stays exactly as typed on failure |
| Messages.GroupHead | src/pages/Messages.jsx:408 | message `i` belongs to the group headed by the last avatar at or before it: every message from that avatar to `i` has its sender, and none after the head shows an avatar |
| Messages.MixedIdTypesSplitGroups | src/pages/Messages.jsx:408 | sender ids `7` and `"7"` start two avatar groups (`!==`) although they are one user for the notification check |
| StoryModal.Current | src/components/StoryModal.jsx:15 | `stories[currentIndex]` exists iff the index is a position of the list |
| StoryModal.GoToPrevious | src/components/StoryModal.jsx:42-47 | steps back and hides the comments only when the index is positive, otherwise nothing changes |
| StoryModal.GoToNext | src/components/StoryModal.jsx:49-56 | closes iff at (or past) the last story; otherwise steps forward and hides the comments |
| StoryModal.AutoAdvance | src/components/StoryModal.jsx:30-40 | the timer closes iff at the last story, otherwise steps forward leaving the comments panel alone |
| StoryModal.NavigationKeepsIndexInRange | src/components/StoryModal.jsx:30-56 | from a valid index every step shows a valid index or closes |
| StoryModal.NextThenPrevious | src/components/StoryModal.jsx:42-56 | forward then back returns to the same story with the comments hidden |
| StoryModal.AutoRunReachesEnd | src/components/StoryModal.jsx:30-40 | after `k` ticks the viewer shows story `index + k` while there is one, and has closed otherwise |
| StoryModal.OnStoryChange | src/components/StoryModal.jsx:18-28 | on a valid index the like flag and count come from the story (`\|\| false`, `\|\| 0`), the comments only when it carries a `comments` field, and nothing else changes; out of range nothing changes |
| StoryModal.Like | src/components/StoryModal.jsx:58-76 | without a user or story, or on failure, nothing changes; on success the flag flips, a like adds one and an unlike subtracts one but not below 0 |
| StoryModal.LikeThenUnlike | src/components/StoryModal.jsx:62-71 | a successful like then unlike restores the view |
| StoryModal.SendComment | src/components/StoryModal.jsx:78-107 | nothing is sent for a blank draft or without a user or story; the request carries the trimmed text; on `success` exactly one comment with the new id, the viewer's name and picture and the trimmed text is appended and the draft cleared; otherwise nothing changes |
| StoryModal.ProgressBar | src/components/StoryModal.jsx:143-153 | one segment per story |
| StoryModal.ProgressBarShape | src/components/StoryModal.jsx:149-153 | segments before the current one are seen, the current one is the only active one, the later ones are pending |
| Profile.UpdateLikes | src/pages/Profile.jsx:307-316 | same length; posts with another id unchanged; each post with the id gets `is_liked` 0 or 1 and `likes_count` moved by one, other fields kept |
| Profile.HandleLike | src/pages/Profile.jsx:296-333 | without a user or on failure nothing changes; on success the same update applies to all three lists and to the open post |
| Profile.LikeThenUnlikeRestores | src/pages/Profile.jsx:311-312 | liking then unliking restores every list exactly |
| Profile.UpdateSaves | src/pages/Profile.jsx:346-351 | same length; only `is_saved` of the posts with the id changes |
| Profile.HandleSave | src/pages/Profile.jsx:335-372 | without a user or on failure nothing changes; on success the save update applies to all three lists and to the open post |
| Profile.SaveKeepsLikes | src/pages/Profile.jsx:346-351 | a save never changes any like flag or like count |
| Profile.HandleFollow | src/pages/Profile.jsx:168-195 | without both ids or on failure nothing changes; on success the flag flips and the count (a missing one read as 0) moves by one |
| Profile.FollowThenUnfollow | src/pages/Profile.jsx:175-191 | follow then unfollow restores the flag and the count |
| Profile.UnfollowAtZero | src/pages/Profile.jsx:179-182 | the count is not clamped: unfollowing with no count shows -1 |
| Profile.CurrentPosts | src/pages/Profile.jsx:399-408 | "saved" shows saved posts, "liked" liked posts, any other tab own posts |
| Profile.ProfilePicSelect | src/pages/Profile.jsx:237-255 | a chosen file raises the picture check's alert, if any; the selection changes only to an accepted file |
| Home.SavedMap | src/pages/Home.jsx:62-67 | the map's keys are exactly the returned posts' ids, each mapped to true |
| Home.LoadSavedPosts | src/pages/Home.jsx:59-71 | a failed request keeps the map; a missing `posts` field gives the empty map; otherwise the saved map of the posts |
| Home.TopLevel | src/pages/Home.jsx:77 | the filtered list is never longer than the input |
| Home.TopLevelKeepsOnlyTop | src/pages/Home.jsx:77 | the filter keeps only comments with a falsy `parent_id` |
| Home.TopLevelAppend | src/pages/Home.jsx:77 | filtering distributes over concatenation |
| Home.TopLevelOfReplies | src/pages/Home.jsx:77 | a list of replies filters to nothing |
| Home.LatestComments | src/pages/Home.jsx:77-78 | at most two previews, all top-level |
| Home.FirstTwoTopLevel | src/pages/Home.jsx:77-78 | the previews are the first two top-level comments in input order, whatever follows |
| Home.OnlyTopLevel | src/pages/Home.jsx:77 | a list whose only top-level comment is `cs[i]` filters to exactly that comment |
| Home.OneTopLevel | src/pages/Home.jsx:77-78 | with exactly one top-level comment, the previews are that comment alone |
| Home.RepliesGiveNoPreviews | src/pages/Home.jsx:77-78 | a list of replies gives no previews |
| Home.LoadLatestComments | src/pages/Home.jsx:73-86 | a failed request keeps the preview map; otherwise only the post's entry is set, to the previews of the answer (none for a missing field) |
| Home.PreviewRequests | src/pages/Home.jsx:47-51 | a post id is requested iff some loaded post with that id has a positive comment count |
| Home.HandleLike | src/pages/Home.jsx:88-101 | on failure the flags are unchanged; on success only this post's flag changes, and it flips |
| Home.DoubleTap | src/pages/Home.jsx:103-112 | a liked post is left alone (no call); otherwise it is the like handler |
| Home.DoubleTapNeverUnlikes | src/pages/Home.jsx:109-111 | a double tap never unlikes, and a successful one leaves the post liked |
| Home.HandleSavePost | src/pages/Home.jsx:114-132 | success flips only this post's flag; a 409 sets it to true either way; any other failure changes nothing |
| Home.ConflictMeansSaved | src/pages/Home.jsx:123-127 | a 409 while unsaving a saved post leaves it saved |
| Home.CommentsLinkLabel | src/pages/Home.jsx:529-541 | hidden for a count of 0 or less, "View comments" for 1 or 2, "View all N comments" above |
| App.ValidateStoredUser | src/App.jsx:18-62 | loading ends on every path; no stored item leaves storage alone and logs out; a session exists iff a parseable record with truthy `id` and `username` was stored and the backend returned a user, and then it is the stored record overlaid by the backend's fields (backend wins) and is written back; every other path removes both keys and logs out |
| App.StartupIsConsistent | src/App.jsx:42-58 | after startup the stored user is exactly the session, or absent when logged out |
| App.RevalidationIsStable | src/App.jsx:44-49 | revalidating the written-back record with the same backend answer gives the same state |
| App.Login | src/App.jsx:67-70 | the user becomes the session and the stored record; the token is untouched |
| App.Logout | src/App.jsx:72-76 | no session and both keys removed |
| App.LoginLogoutConsistent | src/App.jsx:67-76 | login and logout keep the session and the stored record in agreement |
| App.Param | src/App.jsx:142 | a `:param` segment is a non-empty slash-free rest of the path after the prefix |
| App.Route | src/App.jsx:118-174 | /login and /register redirect iff signed in, and otherwise render the login and registration pages; protected paths redirect iff signed out; every other path is caught and redirected; every redirect goes to / when signed in and to /login otherwise; signed in, / renders the feed, /messages and /messages/:username both render the same message page (the page reads no path parameter), /search the search page, and /profile/:username the profile of that user |
| App.RedirectTargetRenders | src/App.jsx:118-174 | the target of every redirect renders, so routing never redirects twice |
| App.FeedNeedsSession | src/App.jsx:134-140 | signed in the feed renders; signed out it redirects to /login |
| Search.HandleSearch | src/pages/Search.jsx:15-32 | the raw query is always stored; no request iff the trimmed query is shorter than 2, which also clears the results; a request sends the raw query, a failure keeps the previous results, an answer replaces them (a missing field gives none) |
| Search.BioPreview | src/pages/Search.jsx:197-199 | no preview iff the bio is empty; a bio over 60 characters shows its first 60 plus "..."; otherwise the bio itself |
| Search.BioPreviewIsPrefix | src/pages/Search.jsx:199 | a preview is the bio, or its first 60 characters followed by "..." |
| Search.View | src/pages/Search.jsx:153-239 | spinner iff loading; the list iff results exist; "No users found" iff no results and the untrimmed query has 2 or more characters; the prompt otherwise |
| Search.PaddedShortQuery | src/pages/Search.jsx:15-21 | the query " a" sends nothing, yet the panel shows "No users found" rather than the prompt |
| CreatePostModal.MediaTypeOf | src/components/CreatePostModal.jsx:28 | video iff the MIME type starts with `video/` |
| CreatePostModal.FileSelect | src/components/CreatePostModal.jsx:19-29 | a file over 50 MiB only sets the error; otherwise the file is selected with its media type and the previous error stays |
| CreatePostModal.FileRead | src/components/CreatePostModal.jsx:31-38 | the cropper opens after every read, since `onloadend` also follows a failed one; the preview holds the file iff the read succeeded; a failed read sets the read error, a successful one keeps the error; nothing else changes |
| CreatePostModal.CropComplete | src/components/CreatePostModal.jsx:43-50 | a cropped image is kept iff the media is an image and the cropper produced one; the cropper closes either way |
| CreatePostModal.Submit | src/components/CreatePostModal.jsx:52-113 | with neither file nor crop, an error and no upload; the crop is uploaded in preference to the file; a create request follows iff the upload succeeded, to the story or the post endpoint by the story flag, with the upload's URL, the media type and the caption; the composer closes iff the create succeeded, which is exactly when no error is shown; errors follow the message precedence |
| CreatePostModal.VideoUploadsOriginal | src/components/CreatePostModal.jsx:43-76 | after choosing a video, whatever the cropper returns, the submit uploads the original file and posts a video |
| CreatePostModal.RejectedUploadCreatesNothing | src/components/CreatePostModal.jsx:84-86 | an unsuccessful upload creates nothing and shows the server's message or "Upload failed" |
| EditProfileModal.InitialForm | src/components/EditProfileModal.jsx:7-11 | each field is the profile's value, or "" when missing |
| EditProfileModal.FileRead | src/components/EditProfileModal.jsx:37-43 | as for the post composer: the cropper opens after every read, the preview holds the picture iff the read succeeded, and a failed read sets the read error |
| EditProfileModal.FileSelect | src/components/EditProfileModal.jsx:19-46 | a refused file sets the picture check's message and keeps the selection; an accepted one clears the error and is selected |
| EditProfileModal.CropComplete | src/components/EditProfileModal.jsx:48-51 | stores what the cropper produced, closes it, and changes nothing else |
| EditProfileModal.Submit | src/components/EditProfileModal.jsx:53-104 | the update is sent iff there is no crop or the upload succeeded; it carries the user id, the form's name and bio, and the uploaded URL or the form's picture; the stored user is written iff the update succeeded, as the current user overlaid with exactly those three fields; an error shows iff nothing was stored, by the message precedence |
| EditProfileModal.PictureKeptWithoutCrop | src/components/EditProfileModal.jsx:59-76 | without a crop nothing is uploaded and the current picture URL is sent and stored |
| EditProfileModal.FailedUploadChangesNothing | src/components/EditProfileModal.jsx:68-73 | a failed upload sends no update, stores nothing and shows an error |
| EditProfileModal.UpdateKeepsIdentity | src/components/EditProfileModal.jsx:89-95 | whenever the update is sent and succeeds (no crop, or an accepted upload), the stored user keeps its id and username |

## Left out

- The HTTP client (`src/services/api.js`) is not part of this model, and neither is the multipart upload with its progress callback. Each handler takes its calls' outcomes as inputs. The argument order of the like and save calls is not modelled either: the profile page passes `(postId, userId)` at src/pages/Profile.jsx:301-303 and 340-342, against the `(userId, postId)` signatures. The model only sees whether the call succeeded.
- Timers and polling are left out: the 3 s message poll, the 30 s unread poll, the 5 s story timer and the heart animation. Only the step functions are modelled (`LoadMessages`, `AutoAdvance`, `AutoRun`). React closure staleness is also left out, such as the poll interval capturing `previousMessageCount` at selection time. The poll state carries no conversation: the count is reset only when the page mounts, never on a switch of conversation, as `Messages.CountCarriesAcrossSwitch` states.
- The unread-count hook (`src/hooks/useUnreadCount.js`) is timer plumbing around an endpoint the client does not define. The badge takes the count as an input.
- Image cropping (canvas, zoom, aspect ratio) is floating-point DOM work. The cropper's output is an opaque `Blob` that is either present or absent.
- Browser APIs are left out: `localStorage`, `JSON.parse`, `FileReader`, `new Date` parsing, locale date and time formatting, `Audio`, scrolling, `navigator.share` and the clipboard. They appear only as inputs or outputs:
  - the stored user is `Absent | Unparsable | Record`;
  - the elapsed time is `Option<int>` milliseconds;
  - the locale text is a bucket;
  - the sound is a boolean;
  - the comment timestamp is a `now` parameter.
- Pure UI or trivial dispatch is left out: the footer, the delete and caption modals, login and registration forms, the follow-list modal, and rendering.
- Concurrency is left out. Out-of-order completion of overlapping requests is not modelled; each handler is one sequential step.
- Spinner and in-flight flags (`loading`, `sending`, `sendingComment`, `uploadingProfilePic`) are left out except where a decision reads them: the startup flag, the Messages loading gate and the Search panel.
- The Messages page's own `formatTime` is identical to `formatMessageTime` and is modelled once, as `TimeUtils.FormatMessageTime`.
- String lengths are counted in Unicode scalar values, where JavaScript counts UTF-16 code units. The 60-character bio cut and the 2-character query guard differ only for text outside the Basic Multilingual Plane.
- `Null` stands for both `null` and `undefined`. A stored JSON value that is not an object reads as an object without fields, which fails the startup check just as `parsedUser?.id` does.
- The router is modelled only for exact paths and single-segment `:param` routes. Trailing slashes, case-insensitive matching and percent-decoding are not modelled.
- Numbers are unbounded integers (`Num(int)`). JavaScript numbers are doubles: `String(n)` switches to exponent form from 1e21, integers beyond 2^53 lose precision, and fractions and `NaN` exist. The model covers the integers ids, counts and sizes take in practice, well inside 2^53, where `String(n)` is the plain decimal rendering that `IntToString` gives.
- Comments whose parent links form a cycle (a comment replying to itself, or two replying to each other) are pushed into children lists that no root reaches, so the dialog never draws them. `CommentsModal.AllDrawn` promises that every comment is drawn only when the links form no cycle, and `CommentsModal.SelfReplyHidden` shows the self-reply case.
- `Value` holds JSON scalars only; nested objects and arrays inside a stored user or a backend record are not representable. The handlers modelled only copy such fields through the `{...a, ...b}` merges and never read into them.
- The comment tree's node map is a plain JavaScript object, which inherits `Object.prototype`. A `parent_id` naming one of its properties, such as `"constructor"` or `"toString"`, would find a truthy inherited value at src/components/CommentsModal.jsx:77, and the `push` would throw. The model assumes ids never name such properties; for such an id it would make the comment a root instead.
- Post ids are integers and compared with `===`. A post id arriving as a string would match nothing in the profile lists; that case is not modelled.
- StoryModal.OnStoryChange: the like flag is stored as the boolean truthiness of `is_liked`. The source stores the raw truthy value, which renders the same.
- Home.PreviewRequests: states which ids are requested, not the order of the requests or how often one is repeated. The requests run concurrently and their order does not reach the state.
- Home.TopLevel: its own contract gives only the length bound. Its content is stated by `TopLevelKeepsOnlyTop`, `TopLevelAppend` and `TopLevelOfReplies`.
- The story owner check (`isOwnStory`) and the "Following" tag in search results are plain rendering conditions and are not modelled.

=== FILE: app.dfy ===
/** The application shell: validating the stored session at startup, login
    and logout, and the route table with its guards. */
module App {
  import opened Js
  import opened Outcomes

  /** What `localStorage.getItem('user')` gives, after `JSON.parse`:
      `Absent` for a missing or empty item, `Unparsable` when parsing throws,
      `Record` otherwise (a JSON value that is not an object reads as an
      object without fields). */
  datatype StoredUser = Absent | Unparsable | Record(fields: Obj)

  /** The two browser-storage keys the client uses. */
  datatype Storage = Storage(user: StoredUser, token: Option<string>)

  /** The signed-in user (`None` when logged out), the startup spinner flag
      and the browser storage. */
  datatype AppState = AppState(session: Option<Obj>, loading: bool, storage: Storage)

  /** The stored record carries the fields the startup check demands. */
  predicate WellFormed(o: Obj) {
    Truthy(Field(o, "id")) && Truthy(Field(o, "username"))
  }

  /** The clear-and-logout outcome: both keys removed, nobody signed in. */
  function Cleared(): AppState {
    AppState(None, false, Storage(Absent, None))
  }

  /** `validateStoredUser`. `answer` is the outcome of looking the stored
      user up on the backend (its `user` field, `None` when absent); it is
      read only when a well-formed record was stored. */
  function ValidateStoredUser(storage: Storage, answer: Fetch<Option<Obj>>): (r: AppState)
    ensures !r.loading
    ensures storage.user.Absent? ==> r == AppState(None, false, storage)
    ensures r.session.Some? <==>
      storage.user.Record? && WellFormed(storage.user.fields) && answer.Fetched? && answer.value.Some?
    ensures r.session.Some? ==>
      var stored := storage.user.fields; var backend := answer.value.value;
      && r.session.value.Keys == stored.Keys + backend.Keys
      && (forall k :: k in backend ==> r.session.value[k] == backend[k])
      && (forall k :: k in stored && k !in backend ==> r.session.value[k] == stored[k])
      && r.storage == storage.(user := Record(r.session.value))
    ensures r.session.None? && !storage.user.Absent? ==> r == Cleared()
  {
    match storage.user
    case Absent => AppState(None, false, storage)
    case Unparsable => Cleared()
    case Record(parsed) =>
      if !WellFormed(parsed) then Cleared()
      else match answer
        case FetchFailed(_) => Cleared()
        case Fetched(user) =>
          if user.None? then Cleared()
          else
            var freshUser := parsed + user.value;
            AppState(Some(freshUser), false, storage.(user := Record(freshUser)))
  }

  /** The session and the stored record agree: the stored user is the
      session's record, or absent when nobody is signed in. */
  predicate Consistent(st: AppState) {
    st.storage.user == if st.session.Some? then Record(st.session.value) else Absent
  }

  /** After startup the session and storage agree, whatever was stored and
      whatever the backend answered. */
  lemma StartupIsConsistent(storage: Storage, answer: Fetch<Option<Obj>>)
    ensures Consistent(ValidateStoredUser(storage, answer))
  {
  }

  /** Restarting with the written-back record and the same backend answer
      restores the same session: the merge is idempotent. */
  lemma RevalidationIsStable(storage: Storage, backend: Obj)
    requires storage.user.Record? && WellFormed(storage.user.fields)
    requires WellFormed(storage.user.fields + backend)
    ensures var first := ValidateStoredUser(storage, Fetched(Some(backend)));
      ValidateStoredUser(first.storage, Fetched(Some(backend))) == first
  {
    var o := storage.user.fields;
    assert (o + backend) + backend == o + backend;
  }

  /** `handleLogin`: the user becomes the session and is written to storage. */
  function Login(st: AppState, user: Obj): (r: AppState)
    ensures r.session == Some(user) && r.storage.user == Record(user)
    ensures r.storage.token == st.storage.token && r.loading == st.loading
  {
    st.(session := Some(user), storage := st.storage.(user := Record(user)))
  }

  /** `handleLogout`: no session, and both keys removed. */
  function Logout(st: AppState): (r: AppState)
    ensures r.session.None? && r.storage == Storage(Absent, None) && r.loading == st.loading
  {
    st.(session := None, storage := Storage(Absent, None))
  }

  /** Login and logout keep the session and storage in agreement. */
  lemma LoginLogoutConsistent(st: AppState, user: Obj)
    ensures Consistent(Login(st, user))
    ensures Consistent(Logout(st))
  {
  }

  // ---------------------------------------------------------------------------
  // Routes.

  /** The pages a path can render. The message page takes nothing from the
      path: `/messages/:username` renders it exactly as `/messages` does. */
  datatype Page = LoginPage | RegisterPage | HomePage | ProfilePage(username: string)
                | MessagesPage | SearchPage

  datatype RouteResult = Render(page: Page) | Redirect(to: string)

  /** The single path segment after `prefix`, for a `:param` route. */
  function Param(path: string, prefix: string): (r: Option<string>)
    ensures r.Some? ==> path == prefix + r.value && r.value != "" && '/' !in r.value
  {
    if StartsWith(path, prefix) && |path| > |prefix| && '/' !in path[|prefix|..] then
      assert path == prefix + path[|prefix|..];
      Some(path[|prefix|..])
    else None
  }

  /** The paths only a signed-in user may see. */
  predicate Protected(path: string) {
    path == "/" || path == "/messages" || path == "/search"
    || Param(path, "/profile/").Some? || Param(path, "/messages/").Some?
  }

  /** No path is both a profile path and a conversation path. */
  lemma ProfileIsNotMessages(path: string)
    ensures Param(path, "/profile/").Some? ==> Param(path, "/messages/").None?
  {
    if Param(path, "/profile/").Some? {
      assert path[..9][1] == 'p';
      assert !StartsWith(path, "/messages/") by {
        if |path| >= 10 {
          assert path[..10][1] == path[..9][1];
        }
      }
    }
  }

  /** The route table: public pages bounce a signed-in user to the feed,
      protected pages bounce a visitor to the login page, and every other
      path redirects to whichever of the two applies. */
  function Route(path: string, signedIn: bool): (r: RouteResult)
    ensures path == "/login" || path == "/register" ==> (r.Redirect? <==> signedIn)
    ensures Protected(path) ==> (r.Redirect? <==> !signedIn)
    ensures r.Redirect? ==> r.to == if signedIn then "/" else "/login"
    ensures r.Render? && r.page.ProfilePage? ==> path == "/profile/" + r.page.username
    ensures path != "/login" && path != "/register" && !Protected(path) ==>
      r == Redirect(if signedIn then "/" else "/login")
    ensures !signedIn && path == "/login" ==> r == Render(LoginPage)
    ensures !signedIn && path == "/register" ==> r == Render(RegisterPage)
    ensures signedIn && path == "/" ==> r == Render(HomePage)
    ensures signedIn && path == "/messages" ==> r == Render(MessagesPage)
    ensures signedIn && path == "/search" ==> r == Render(SearchPage)
    ensures signedIn && Param(path, "/profile/").Some? ==>
      r == Render(ProfilePage(Param(path, "/profile/").value))
    ensures signedIn && Param(path, "/messages/").Some? ==>
      r == Render(MessagesPage)
  {
    if path == "/login" then (if signedIn then Redirect("/") else Render(LoginPage))
    else if path == "/register" then (if signedIn then Redirect("/") else Render(RegisterPage))
    else if !Protected(path) then Redirect(if signedIn then "/" else "/login")
    else if !signedIn then Redirect("/login")
    else if path == "/" then Render(HomePage)
    else if path == "/messages" then Render(MessagesPage)
    else if path == "/search" then Render(SearchPage)
    else if Param(path, "/profile/").Some? then
      ProfileIsNotMessages(path);
      Render(ProfilePage(Param(path, "/profile/").value))
    else Render(MessagesPage)
  }

  /** Every redirect lands on a page that renders: routing never loops. */
  lemma RedirectTargetRenders(path: string, signedIn: bool)
    requires Route(path, signedIn).Redirect?
    ensures Route(Route(path, signedIn).to, signedIn).Render?
  {
    assert !Protected("/login") by {
      assert !StartsWith("/login", "/profile/") by { assert "/login"[1] != "/profile/"[1]; }
      assert !StartsWith("/login", "/messages/") by { assert "/login"[1] != "/messages/"[1]; }
    }
  }

  /** Signed in, the feed renders; signed out, it sends to the login page. */
  lemma FeedNeedsSession()
    ensures Route("/", true) == Render(HomePage)
    ensures Route("/", false) == Redirect("/login")
  {
  }
}

=== FILE: badge.dfy ===
/** The unread-messages badge shown beside the Messages link on the
    Messages and Search pages. */
module Badge {
  import opened Js

  /** The badge text: the count itself, capped at "9+". */
  function Label(count: int): (r: string)
    ensures r == "9+" <==> count > 9
    ensures count <= 9 ==> r == IntToString(count)
  {
    IntToStringShape(count);
    if count > 9 then "9+" else IntToString(count)
  }

  /** The badge is rendered only for a positive count. */
  function Badge(count: int): (r: Option<string>)
    ensures r.None? <==> count <= 0
    ensures r.Some? ==> r.value == Label(count)
  {
    if count > 0 then Some(Label(count)) else None
  }

  /** A count of 3 shows "3"; when it drops back to 0 the badge disappears. */
  lemma BadgeAppearsAndDisappears()
    ensures Badge(3) == Some("3")
    ensures Badge(0) == None
    ensures Badge(12) == Some("9+")
  {
    assert NatToString(3) == "3";
  }
}

=== FILE: comments.dfy ===
/** The comments dialog of a post: the flat-list-to-forest builder, the
    comment text fallback, the submit guard and payload, and the Reply toggle.

    The source builds one node object per comment (keyed by `String(id)`,
    a later comment with the same key replacing an earlier one) and pushes
    those shared objects into the root list or into their parent's `children`
    list, and returns the root list; the dialog draws the roots and, below
    each drawn node, its children. The model keeps the same links in flat
    form: the root list, and for every key the children list of the node
    with that key. What is drawn from them is `Drawn`. */
module CommentsModal {
  import opened Js
  import opened Entities
  import opened Outcomes

  // ---------------------------------------------------------------------------
  // The forest builder.

  /** The key of a comment's node: JavaScript object keys are `String(id)`. */
  function Key(c: Comment): string {
    ToStr(c.id)
  }

  /** The key a reply's parent is looked up under. */
  function ParentKey(c: Comment): string {
    ToStr(c.parentId)
  }

  function Keys(flat: seq<Comment>): set<string> {
    set i | 0 <= i < |flat| :: Key(flat[i])
  }

  /** `c.parent_id && map[c.parent_id]`: the comment has a parent link and a
      node with that key exists, so it goes under that node. */
  predicate Attaches(flat: seq<Comment>, c: Comment) {
    Truthy(c.parentId) && ParentKey(c) in Keys(flat)
  }

  /** The node map after the first pass over `flat[..n]`: each key bound to
      the last comment carrying it. */
  function NodeMap(flat: seq<Comment>, n: nat): (m: map<string, Comment>)
    requires n <= |flat|
    ensures forall j :: 0 <= j < n ==> Key(flat[j]) in m
  {
    if n == 0 then map[]
    else NodeMap(flat, n - 1)[Key(flat[n - 1]) := flat[n - 1]]
  }

  lemma {:induction false} NodeMapKeys(flat: seq<Comment>, n: nat)
    requires n <= |flat|
    ensures NodeMap(flat, n).Keys == set i | 0 <= i < n :: Key(flat[i])
  {
    if n > 0 {
      NodeMapKeys(flat, n - 1);
      var prev := set i | 0 <= i < n - 1 :: Key(flat[i]);
      var all := set i | 0 <= i < n :: Key(flat[i]);
      forall k | k in all ensures k in prev || k == Key(flat[n - 1]) {
        var i :| 0 <= i < n && Key(flat[i]) == k;
        if i < n - 1 {
          assert k in prev;
        }
      }
      assert all == prev + {Key(flat[n - 1])};
    }
  }

  /** The node that the second pass pushes for `flat[i]`. */
  function NodeFor(flat: seq<Comment>, i: nat): Comment
    requires i < |flat|
  {
    NodeMap(flat, |flat|)[Key(flat[i])]
  }

  // ---------------------------------------------------------------------------
  // Order-preserving selection, the shape of both lists the builder fills.

  /** The elements of `xs[..n]` whose flag in `keep` is set, in input order. */
  function Pick<T>(xs: seq<T>, keep: seq<bool>, n: nat): seq<T>
    requires n <= |xs| && |keep| == |xs|
  {
    if n == 0 then []
    else if keep[n - 1] then Pick(xs, keep, n - 1) + [xs[n - 1]]
    else Pick(xs, keep, n - 1)
  }

  /** The positions `Pick` takes its elements from. */
  function PickPositions(keep: seq<bool>, n: nat): (idx: seq<nat>)
    requires n <= |keep|
    ensures forall j :: 0 <= j < |idx| ==> idx[j] < n && keep[idx[j]]
  {
    if n == 0 then []
    else if keep[n - 1] then PickPositions(keep, n - 1) + [n - 1]
    else PickPositions(keep, n - 1)
  }

  /** `xs` is the subsequence of `all` at the strictly increasing positions `idx`. */
  predicate SubsequenceAt<T(==)>(xs: seq<T>, all: seq<T>, idx: seq<nat>) {
    && |idx| == |xs|
    && (forall j :: 0 <= j < |idx| ==> idx[j] < |all| && xs[j] == all[idx[j]])
    && (forall j1, j2 :: 0 <= j1 < j2 < |idx| ==> idx[j1] < idx[j2])
  }

  /** A selected element that occurs once in the input occurs once in the
      selection, an unselected one not at all. */
  lemma {:induction false} PickCount<T>(xs: seq<T>, keep: seq<bool>, n: nat, i: nat)
    requires n <= |xs| && |keep| == |xs| && i < |xs|
    requires forall j :: 0 <= j < |xs| && j != i ==> xs[j] != xs[i]
    ensures multiset(Pick(xs, keep, n))[xs[i]] == if i < n && keep[i] then 1 else 0
  {
    if n > 0 {
      PickCount(xs, keep, n - 1, i);
      if keep[n - 1] {
        CountAppend(Pick(xs, keep, n - 1), xs[n - 1], xs[i]);
      }
    }
  }

  lemma CountAppend<T>(prev: seq<T>, x: T, y: T)
    ensures multiset(prev + [x])[y] == multiset(prev)[y] + (if x == y then 1 else 0)
  {
    assert multiset(prev + [x]) == multiset(prev) + multiset{x};
  }

  /** The selection is the subsequence at the selected positions. */
  lemma {:induction false} PickInOrder<T>(xs: seq<T>, keep: seq<bool>, n: nat)
    requires n <= |xs| && |keep| == |xs|
    ensures SubsequenceAt(Pick(xs, keep, n), xs, PickPositions(keep, n))
  {
    if n > 0 {
      PickInOrder(xs, keep, n - 1);
    }
  }

  /** The selection is empty exactly when no flag is set. */
  lemma {:induction false} PickEmpty<T>(xs: seq<T>, keep: seq<bool>, n: nat)
    requires n <= |xs| && |keep| == |xs|
    ensures Pick(xs, keep, n) == [] <==> forall i :: 0 <= i < n ==> !keep[i]
  {
    if n > 0 {
      PickEmpty(xs, keep, n - 1);
    }
  }

  /** Every selected element is an input element with its flag set. */
  lemma {:induction false} PickFrom<T>(xs: seq<T>, keep: seq<bool>, n: nat)
    requires n <= |xs| && |keep| == |xs|
    ensures forall x :: x in Pick(xs, keep, n) ==> exists i :: 0 <= i < n && keep[i] && xs[i] == x
  {
    if n > 0 {
      PickFrom(xs, keep, n - 1);
    }
  }

  // ---------------------------------------------------------------------------
  // The two lists of the builder as selections.

  /** The nodes the second pass pushes, one per input position. */
  function Nodes(flat: seq<Comment>): (ns: seq<Comment>)
    ensures |ns| == |flat|
    ensures forall i :: 0 <= i < |flat| ==> ns[i] == NodeFor(flat, i)
  {
    seq(|flat|, i requires 0 <= i < |flat| => NodeFor(flat, i))
  }

  /** Which positions go to the root list. */
  function RootFlags(flat: seq<Comment>): (fs: seq<bool>)
    ensures |fs| == |flat|
    ensures forall i :: 0 <= i < |flat| ==> (fs[i] <==> !Attaches(flat, flat[i]))
  {
    seq(|flat|, i requires 0 <= i < |flat| => !Attaches(flat, flat[i]))
  }

  /** Which positions go to the children list of the node keyed `k`. */
  function ChildFlags(flat: seq<Comment>, k: string): (fs: seq<bool>)
    ensures |fs| == |flat|
    ensures forall i :: 0 <= i < |flat| ==> (fs[i] <==> Attaches(flat, flat[i]) && ParentKey(flat[i]) == k)
  {
    seq(|flat|, i requires 0 <= i < |flat| => Attaches(flat, flat[i]) && ParentKey(flat[i]) == k)
  }

  /** Reference definition of the root list after the second pass has seen
      `flat[..n]`: the nodes of the comments that do not attach, in order. */
  function RootsUpTo(flat: seq<Comment>, n: nat): seq<Comment>
    requires n <= |flat|
  {
    Pick(Nodes(flat), RootFlags(flat), n)
  }

  /** Reference definition of the children list of the node keyed `k` after
      the second pass has seen `flat[..n]`. */
  function ChildrenUpTo(flat: seq<Comment>, n: nat, k: string): seq<Comment>
    requires n <= |flat|
  {
    Pick(Nodes(flat), ChildFlags(flat, k), n)
  }

  /** The builder's result: the root list and every node's children list. */
  datatype Forest = Forest(roots: seq<Comment>, children: map<string, seq<Comment>>)

  /** `buildTree`: both passes of the source, over immutable maps. */
  method BuildTree(flat: seq<Comment>) returns (f: Forest)
    ensures f.roots == RootsUpTo(flat, |flat|)
    ensures f.children.Keys == Keys(flat)
    ensures forall k :: k in f.children ==> f.children[k] == ChildrenUpTo(flat, |flat|, k)
  {
    var nodes, empty := IndexNodes(flat);
    f := LinkNodes(flat, nodes, empty);
  }

  /** First pass: one node per key, each with an empty children list. */
  method IndexNodes(flat: seq<Comment>) returns (nodes: map<string, Comment>, children: map<string, seq<Comment>>)
    ensures nodes == NodeMap(flat, |flat|) && nodes.Keys == Keys(flat)
    ensures children.Keys == Keys(flat)
    ensures forall k :: k in children ==> children[k] == []
  {
    nodes := map[];
    children := map[];
    var i := 0;
    while i < |flat|
      invariant 0 <= i <= |flat|
      invariant nodes == NodeMap(flat, i)
      invariant children.Keys == nodes.Keys
      invariant forall k :: k in children ==> children[k] == []
    {
      nodes := nodes[Key(flat[i]) := flat[i]];
      children := children[Key(flat[i]) := []];
      i := i + 1;
    }
    NodeMapKeys(flat, |flat|);
  }

  /** Second pass: each comment's node goes to its parent's children list
      when `parent_id` is truthy and names a node, to the root list otherwise. */
  method LinkNodes(flat: seq<Comment>, nodes: map<string, Comment>, empty: map<string, seq<Comment>>)
    returns (f: Forest)
    requires nodes == NodeMap(flat, |flat|) && nodes.Keys == Keys(flat)
    requires empty.Keys == Keys(flat)
    requires forall k :: k in empty ==> empty[k] == []
    ensures f.roots == RootsUpTo(flat, |flat|)
    ensures f.children.Keys == Keys(flat)
    ensures forall k :: k in f.children ==> f.children[k] == ChildrenUpTo(flat, |flat|, k)
  {
    f := Forest([], empty);
    var i := 0;
    while i < |flat|
      invariant 0 <= i <= |flat|
      invariant f.children.Keys == Keys(flat)
      invariant f.roots == RootsUpTo(flat, i)
      invariant forall k :: k in f.children ==> f.children[k] == ChildrenUpTo(flat, i, k)
    {
      f := LinkOne(flat, nodes, i, f);
      i := i + 1;
    }
  }

  /** One iteration of the second pass, for `flat[i]`. */
  method LinkOne(flat: seq<Comment>, nodes: map<string, Comment>, i: nat, f: Forest) returns (g: Forest)
    requires i < |flat|
    requires nodes == NodeMap(flat, |flat|) && nodes.Keys == Keys(flat)
    requires f.children.Keys == Keys(flat)
    requires f.roots == RootsUpTo(flat, i)
    requires forall k :: k in f.children ==> f.children[k] == ChildrenUpTo(flat, i, k)
    ensures g.children.Keys == Keys(flat)
    ensures g.roots == RootsUpTo(flat, i + 1)
    ensures forall k :: k in g.children ==> g.children[k] == ChildrenUpTo(flat, i + 1, k)
  {
    var c := flat[i];
    var node := nodes[Key(c)];
    if Truthy(c.parentId) && ParentKey(c) in nodes {
      var p := ParentKey(c);
      g := Forest(f.roots, f.children[p := f.children[p] + [node]]);
    } else {
      g := Forest(f.roots + [node], f.children);
    }
    RootsStep(flat, i);
    forall k | k in g.children ensures g.children[k] == ChildrenUpTo(flat, i + 1, k) {
      ChildrenStep(flat, i, k);
    }
  }

  /** One step of the second pass extends only the list the comment goes to. */
  lemma RootsStep(flat: seq<Comment>, i: nat)
    requires i < |flat|
    ensures RootsUpTo(flat, i + 1)
            == RootsUpTo(flat, i) + (if Attaches(flat, flat[i]) then [] else [NodeFor(flat, i)])
  {
  }

  lemma ChildrenStep(flat: seq<Comment>, i: nat, k: string)
    requires i < |flat|
    ensures Attaches(flat, flat[i]) && ParentKey(flat[i]) == k ==>
              ChildrenUpTo(flat, i + 1, k) == ChildrenUpTo(flat, i, k) + [NodeFor(flat, i)]
    ensures !(Attaches(flat, flat[i]) && ParentKey(flat[i]) == k) ==>
              ChildrenUpTo(flat, i + 1, k) == ChildrenUpTo(flat, i, k)
  {
  }

  // ---------------------------------------------------------------------------
  // What the forest means when every comment has its own key.

  predicate DistinctKeys(flat: seq<Comment>) {
    forall i, j :: 0 <= i < |flat| && 0 <= j < |flat| && Key(flat[i]) == Key(flat[j]) ==> i == j
  }

  /** With distinct keys the node pushed for a comment is that comment itself. */
  lemma {:induction false} NodeMapIdentity(flat: seq<Comment>, n: nat, i: nat)
    requires DistinctKeys(flat)
    requires i < n <= |flat|
    ensures NodeMap(flat, n)[Key(flat[i])] == flat[i]
  {
    if i < n - 1 {
      assert Key(flat[n - 1]) != Key(flat[i]);
      NodeMapIdentity(flat, n - 1, i);
    }
  }

  /** With distinct keys the nodes are the input comments themselves. */
  lemma NodesAreComments(flat: seq<Comment>)
    requires DistinctKeys(flat)
    ensures Nodes(flat) == flat
  {
    forall i | 0 <= i < |flat| ensures Nodes(flat)[i] == flat[i] {
      NodeMapIdentity(flat, |flat|, i);
    }
  }

  /** With distinct keys no comment occurs twice in the input. */
  lemma DistinctComments(flat: seq<Comment>, i: nat)
    requires DistinctKeys(flat) && i < |flat|
    ensures forall j :: 0 <= j < |flat| && j != i ==> flat[j] != flat[i]
  {
  }

  /** A comment goes under its parent iff its `parent_id` is truthy and names
      a comment in the list; otherwise it is a root. Each comment is placed
      exactly once: once in exactly one of the root list and its parent's
      children list, and in no other children list. */
  lemma PlacedExactlyOnce(flat: seq<Comment>, f: Forest, i: nat)
    requires DistinctKeys(flat)
    requires f.roots == RootsUpTo(flat, |flat|)
    requires f.children.Keys == Keys(flat)
    requires forall k :: k in f.children ==> f.children[k] == ChildrenUpTo(flat, |flat|, k)
    requires i < |flat|
    ensures Attaches(flat, flat[i]) ==>
      multiset(f.roots)[flat[i]] == 0 && multiset(f.children[ParentKey(flat[i])])[flat[i]] == 1
    ensures !Attaches(flat, flat[i]) ==> multiset(f.roots)[flat[i]] == 1
    ensures forall k :: k in f.children && (k != ParentKey(flat[i]) || !Attaches(flat, flat[i]))
              ==> flat[i] !in f.children[k]
  {
    NodesAreComments(flat);
    DistinctComments(flat, i);
    PickCount(flat, RootFlags(flat), |flat|, i);
    forall k | k in f.children
      ensures multiset(f.children[k])[flat[i]]
              == if Attaches(flat, flat[i]) && ParentKey(flat[i]) == k then 1 else 0
    {
      PickCount(flat, ChildFlags(flat, k), |flat|, i);
    }
  }

  /** A reply whose parent is not in the list (an orphan) becomes a root. */
  lemma OrphanBecomesRoot(flat: seq<Comment>, f: Forest, i: nat)
    requires DistinctKeys(flat)
    requires f.roots == RootsUpTo(flat, |flat|)
    requires f.children.Keys == Keys(flat)
    requires forall k :: k in f.children ==> f.children[k] == ChildrenUpTo(flat, |flat|, k)
    requires i < |flat| && Truthy(flat[i].parentId) && ParentKey(flat[i]) !in Keys(flat)
    ensures flat[i] in f.roots
  {
    PlacedExactlyOnce(flat, f, i);
  }

  /** Nothing is invented: every node in the forest is a comment of the list. */
  lemma ForestDrawnFromInput(flat: seq<Comment>, k: string)
    ensures forall c :: c in RootsUpTo(flat, |flat|) ==> c in flat
    ensures forall c :: c in ChildrenUpTo(flat, |flat|, k) ==> c in flat
  {
    PickFrom(Nodes(flat), RootFlags(flat), |flat|);
    PickFrom(Nodes(flat), ChildFlags(flat, k), |flat|);
    forall i | 0 <= i < |flat| ensures Nodes(flat)[i] in flat {
      NodeInInput(flat, |flat|, Key(flat[i]));
    }
  }

  lemma {:induction false} NodeInInput(flat: seq<Comment>, n: nat, k: string)
    requires n <= |flat| && k in NodeMap(flat, n)
    ensures NodeMap(flat, n)[k] in flat
  {
    if k != Key(flat[n - 1]) {
      NodeInInput(flat, n - 1, k);
    }
  }

  /** The root list is the subsequence of the input at the positions of the
      comments that do not attach: it keeps the input's relative order. */
  lemma RootsKeepInputOrder(flat: seq<Comment>)
    requires DistinctKeys(flat)
    ensures SubsequenceAt(RootsUpTo(flat, |flat|), flat, PickPositions(RootFlags(flat), |flat|))
  {
    NodesAreComments(flat);
    PickInOrder(flat, RootFlags(flat), |flat|);
  }

  /** Every children list is the subsequence of the input at the positions
      of the replies to that node: it keeps the input's relative order. */
  lemma ChildrenKeepInputOrder(flat: seq<Comment>, k: string)
    requires DistinctKeys(flat)
    ensures SubsequenceAt(ChildrenUpTo(flat, |flat|, k), flat, PickPositions(ChildFlags(flat, k), |flat|))
  {
    NodesAreComments(flat);
    PickInOrder(flat, ChildFlags(flat, k), |flat|);
  }

  /** Every comment's node carries a children list, and it is empty exactly
      when no comment of the list attaches to it (a leaf). */
  lemma LeafIffNoReplies(flat: seq<Comment>, k: string)
    ensures ChildrenUpTo(flat, |flat|, k) == []
            <==> forall i :: 0 <= i < |flat| ==> !(Attaches(flat, flat[i]) && ParentKey(flat[i]) == k)
  {
    PickEmpty(Nodes(flat), ChildFlags(flat, k), |flat|);
  }

  // ---------------------------------------------------------------------------
  // What the dialog draws: the roots and, below each drawn node, its children.

  /** `c` is drawn within `depth` levels of nesting: it is a root, or it is in
      the children list of a comment that is drawn one level up. */
  predicate Drawn(flat: seq<Comment>, f: Forest, c: Comment, depth: nat)
    decreases depth
  {
    || c in f.roots
    || (depth > 0 && exists j :: 0 <= j < |flat| && Key(flat[j]) in f.children
                                 && c in f.children[Key(flat[j])] && Drawn(flat, f, flat[j], depth - 1))
  }

  /** The parent links form no cycle: some rank strictly decreases from every
      attached reply to its parent. */
  predicate Ranked(flat: seq<Comment>, rank: seq<nat>) {
    && |rank| == |flat|
    && forall i, j ::
         0 <= i < |flat| && 0 <= j < |flat| && Attaches(flat, flat[i]) && ParentKey(flat[i]) == Key(flat[j])
         ==> rank[j] < rank[i]
  }

  /** With distinct ids and no cycle of parent links, every comment is drawn:
      a comment of rank `n` at most `n` levels below a root. */
  lemma {:induction false} AllDrawn(flat: seq<Comment>, f: Forest, rank: seq<nat>, i: nat, depth: nat)
    requires DistinctKeys(flat)
    requires f.roots == RootsUpTo(flat, |flat|)
    requires f.children.Keys == Keys(flat)
    requires forall k :: k in f.children ==> f.children[k] == ChildrenUpTo(flat, |flat|, k)
    requires Ranked(flat, rank)
    requires i < |flat| && rank[i] <= depth
    ensures Drawn(flat, f, flat[i], depth)
    decreases rank[i]
  {
    PlacedExactlyOnce(flat, f, i);
    if Attaches(flat, flat[i]) {
      var j :| 0 <= j < |flat| && Key(flat[j]) == ParentKey(flat[i]);
      assert rank[j] < rank[i];
      AllDrawn(flat, f, rank, j, depth - 1);
      assert flat[i] in f.children[Key(flat[j])];
    } else {
      assert flat[i] in f.roots;
    }
  }

  /** A cycle is not drawn: a comment that replies to itself is no root, and
      its only place is its own children list, so no nesting depth reaches it. */
  lemma {:induction false} SelfReplyHidden(c: Comment, f: Forest, depth: nat)
    requires Truthy(c.parentId) && ParentKey(c) == Key(c)
    requires f.roots == RootsUpTo([c], 1)
    requires f.children.Keys == Keys([c])
    requires forall k :: k in f.children ==> f.children[k] == ChildrenUpTo([c], 1, k)
    ensures !Drawn([c], f, c, depth)
    decreases depth
  {
    assert Key([c][0]) == Key(c);
    assert Attaches([c], [c][0]);
    RootsStep([c], 0);
    assert RootsUpTo([c], 0) == [];
    assert f.roots == [];
    if depth > 0 {
      SelfReplyHidden(c, f, depth - 1);
    }
  }

  // ---------------------------------------------------------------------------
  // Comment text, submit, reply target.

  /** `getText`: the first non-empty of `comment`, `content`, `text`, else "". */
  function GetText(c: Comment): (r: string)
    ensures c.comment != "" ==> r == c.comment
    ensures c.comment == "" && c.content != "" ==> r == c.content
    ensures c.comment == "" && c.content == "" ==> r == c.text
  {
    var options := [c.comment, c.content, c.text, ""];
    assert options[0] == c.comment && options[1] == c.content && options[2] == c.text;
    FirstNonEmpty(options)
  }

  /** The comment being replied to: its id and username. */
  datatype ReplyTarget = ReplyTarget(id: Value, username: string)

  /** The input box and the reply banner. */
  datatype Composer = Composer(draft: string, replyTo: Option<ReplyTarget>)

  /** The body of the create-comment request. */
  datatype NewComment = NewComment(postId: int, userId: Value, content: string, parentId: Value)

  /** The request `handleSubmit` sends, if any. */
  function SubmitRequest(st: Composer, postId: int, userId: Value): (r: Option<NewComment>)
    ensures r.None? <==> AllSpace(st.draft)
    ensures r.Some? ==> r.value.content == Trim(st.draft) && r.value.content != ""
    ensures r.Some? ==> r.value.postId == postId && r.value.userId == userId
    ensures r.Some? ==> r.value.parentId == (if st.replyTo.Some? then st.replyTo.value.id else Null)
  {
    var trimmed := Trim(st.draft);
    if trimmed == "" then None
    else Some(NewComment(postId, userId, trimmed, if st.replyTo.Some? then st.replyTo.value.id else Null))
  }

  /** `handleSubmit`: whitespace-only drafts send nothing and change nothing;
      after a created comment the draft and the reply target are cleared (the
      list itself is reloaded from the backend); a failure keeps both. */
  function Submit(st: Composer, postId: int, userId: Value, outcome: Call): (r: (Option<NewComment>, Composer))
    ensures r.0 == SubmitRequest(st, postId, userId)
    ensures r.0.None? ==> r.1 == st
    ensures r.0.Some? && outcome.Ok? ==> r.1 == Composer("", None)
    ensures outcome.Fail? ==> r.1 == st
  {
    var req := SubmitRequest(st, postId, userId);
    if req.None? then (None, st)
    else if outcome.Ok? then (req, Composer("", None))
    else (req, st)
  }

  /** The Reply button of comment `c`: pressing it on the targeted comment
      (`replyTo?.id === comment.id`) clears the target, on any other comment
      targets that one. */
  function ToggleReply(current: Option<ReplyTarget>, c: Comment): (r: Option<ReplyTarget>)
    ensures current.Some? && current.value.id == c.id ==> r == None
    ensures !(current.Some? && current.value.id == c.id) ==> r == Some(ReplyTarget(c.id, c.username))
  {
    if current.Some? && current.value.id == c.id then None else Some(ReplyTarget(c.id, c.username))
  }

  /** Pressing Reply twice on the same comment ends with no target. */
  lemma ReplyTwiceCancels(current: Option<ReplyTarget>, c: Comment)
    requires !(current.Some? && current.value.id == c.id)
    ensures ToggleReply(ToggleReply(current, c), c) == None
  {
  }
}

=== FILE: createpost.dfy ===
/** The post and story composer: choosing a file, finishing the crop, and
    submitting (upload, then create the post or the story). */
module CreatePostModal {
  import opened Js
  import opened Outcomes

  datatype MediaType = Image | Video

  /** The cropper's output; only its identity matters here. */
  datatype Blob = Blob(size: int)

  /** The composer's state; `preview` tells whether the preview holds the
      chosen file's data URL (it is `null` otherwise). */
  datatype Composer = Composer(selected: Option<FileInfo>, mediaType: MediaType, preview: bool, showCropper: bool,
                               cropped: Option<Blob>, error: string, isStory: bool, caption: string)

  const MaxMediaBytes: int := 50 * MiB

  /** The media type of a chosen file: video exactly for `video/...` MIME types. */
  function MediaTypeOf(file: FileInfo): (t: MediaType)
    ensures t == Video <==> StartsWith(file.mimeType, "video/")
  {
    if StartsWith(file.mimeType, "video/") then Video else Image
  }

  /** `handleFileSelect`: an oversized file only sets the error; otherwise the
      file is selected with its media type. The previous error is not cleared. */
  function FileSelect(st: Composer, file: Option<FileInfo>): (r: Composer)
    ensures file.None? ==> r == st
    ensures file.Some? && file.value.size > MaxMediaBytes ==>
      r == st.(error := "File size must be less than 50MB")
    ensures file.Some? && file.value.size <= MaxMediaBytes ==>
      r == st.(selected := file, mediaType := MediaTypeOf(file.value))
  {
    if file.None? then st
    else if file.value.size > 50 * 1024 * 1024 then st.(error := "File size must be less than 50MB")
    else st.(selected := file, mediaType := MediaTypeOf(file.value))
  }

  /** The file reader's callbacks. `onloadend` runs after a successful read
      and after a failed one alike, so the cropper opens either way; a failed
      read also sets the error (`onerror`) and leaves the preview empty. */
  function FileRead(st: Composer, ok: bool): (r: Composer)
    ensures r.showCropper
    ensures r.preview <==> ok
    ensures ok ==> r.error == st.error
    ensures !ok ==> r.error == "Failed to read file"
    ensures r.(preview := st.preview, showCropper := st.showCropper, error := st.error) == st
  {
    if ok then st.(preview := true, showCropper := true)
    else st.(error := "Failed to read file", preview := false, showCropper := true)
  }

  /** `handleCropComplete`: a video, or a crop that produced nothing, keeps no
      cropped image; the cropper closes either way. */
  function CropComplete(st: Composer, blob: Option<Blob>): (r: Composer)
    ensures !r.showCropper
    ensures r.cropped.Some? <==> st.mediaType.Image? && blob.Some?
    ensures r.cropped.Some? ==> r.cropped == blob
    ensures r.(showCropper := st.showCropper, cropped := st.cropped) == st
  {
    if st.mediaType.Video? || blob.None? then st.(cropped := None, showCropper := false)
    else st.(cropped := blob, showCropper := false)
  }

  /** What is uploaded: the cropped JPEG, or the chosen file as it is. */
  datatype UploadSource = CroppedJpeg(blob: Blob) | OriginalFile(file: FileInfo)

  datatype Endpoint = CreatePost | CreateStory

  datatype CreateRequest = CreateRequest(endpoint: Endpoint, userId: Value, mediaUrl: string,
                                         mediaType: MediaType, caption: string)

  /** What a submit did: what it uploaded, what it asked to create, the error
      it shows ("" for none) and whether the composer closes. */
  datatype SubmitResult = SubmitResult(upload: Option<UploadSource>, create: Option<CreateRequest>,
                                       error: string, done: bool)

  const DefaultError := "Failed to create post"

  /** `handleSubmit`, given the outcomes of the upload and the create call. */
  function Submit(st: Composer, userId: Value, upload: Fetch<UploadReply>, create: Call): (r: SubmitResult)
    ensures st.selected.None? && st.cropped.None? ==>
      r == SubmitResult(None, None, "Please select an image or video", false)
    ensures st.cropped.Some? ==> r.upload == Some(CroppedJpeg(st.cropped.value))
    ensures st.cropped.None? && st.selected.Some? ==> r.upload == Some(OriginalFile(st.selected.value))
    ensures r.create.Some? <==> r.upload.Some? && upload.Fetched? && upload.value.success
    ensures r.create.Some? ==>
      r.create.value == CreateRequest(if st.isStory then CreateStory else CreatePost, userId,
                                      upload.value.url, st.mediaType, st.caption)
    ensures r.done <==> r.create.Some? && create.Ok?
    ensures r.done <==> r.error == ""
    ensures r.upload.Some? && upload.FetchFailed? ==> r.error == ErrorText(upload.error, DefaultError)
    ensures r.upload.Some? && upload.Fetched? && !upload.value.success ==>
      r.error == ErrorText(UploadRejected(upload.value), DefaultError)
    ensures r.create.Some? && create.Fail? ==> r.error == ErrorText(create.error, DefaultError)
  {
    if st.selected.None? && st.cropped.None? then SubmitResult(None, None, "Please select an image or video", false)
    else
      var source := if st.cropped.Some? then CroppedJpeg(st.cropped.value) else OriginalFile(st.selected.value);
      match upload
      case FetchFailed(e) => SubmitResult(Some(source), None, ErrorText(e, DefaultError), false)
      case Fetched(reply) =>
        if !reply.success then
          SubmitResult(Some(source), None, ErrorText(UploadRejected(reply), DefaultError), false)
        else
          var req := CreateRequest(if st.isStory then CreateStory else CreatePost, userId, reply.url,
                                   st.mediaType, st.caption);
          match create
          case Fail(e) => SubmitResult(Some(source), Some(req), ErrorText(e, DefaultError), false)
          case Ok => SubmitResult(Some(source), Some(req), "", true)
  }

  /** A video is never cropped: after choosing one, whatever the cropper
      hands back, the submit uploads the original file and posts a video. */
  lemma VideoUploadsOriginal(st: Composer, file: FileInfo, blob: Option<Blob>, userId: Value,
                             reply: UploadReply, create: Call)
    requires StartsWith(file.mimeType, "video/") && file.size <= MaxMediaBytes
    requires reply.success
    ensures var s := CropComplete(FileSelect(st, Some(file)), blob);
      var r := Submit(s, userId, Fetched(reply), create);
      && r.upload == Some(OriginalFile(file))
      && r.create.Some? && r.create.value.mediaType == Video
  {
  }

  /** An upload that is not a success never creates anything, and its error
      is the server's message or "Upload failed", never the default. */
  lemma RejectedUploadCreatesNothing(st: Composer, userId: Value, reply: UploadReply, create: Call)
    requires st.selected.Some? || st.cropped.Some?
    requires !reply.success
    ensures var r := Submit(st, userId, Fetched(reply), create);
      && r.create.None? && !r.done
      && r.error == (if reply.message != "" then reply.message else "Upload failed")
  {
    UploadRejectedText(reply, DefaultError);
  }
}

=== FILE: editprofile.dfy ===
/** The profile editor: the initial form, the picture choice, and the submit
    that uploads a cropped picture, updates the profile and rewrites the
    stored user. */
module EditProfileModal {
  import opened Js
  import opened Outcomes

  /** The editable fields of the profile being edited; `None` for a missing one. */
  datatype ProfileFields = ProfileFields(fullName: Option<string>, bio: Option<string>,
                                         profilePicture: Option<string>)

  datatype Form = Form(fullName: string, bio: string, profilePicture: string)

  /** A cropped picture; only its identity matters here. */
  datatype Blob = Blob(size: int)

  /** The editor's state; `preview` tells whether the preview holds the
      chosen picture's data URL (it is `null` otherwise). */
  datatype Editor = Editor(form: Form, selected: Option<FileInfo>, preview: bool, showCropper: bool,
                           cropped: Option<Blob>, error: string)

  function OrEmpty(s: Option<string>): string {
    if s.Some? then s.value else ""
  }

  /** The form starts from the profile, with "" for every missing field. */
  function InitialForm(p: ProfileFields): (f: Form)
    ensures p.fullName.None? ==> f.fullName == ""
    ensures p.bio.None? ==> f.bio == ""
    ensures p.profilePicture.None? ==> f.profilePicture == ""
    ensures p.fullName.Some? ==> f.fullName == p.fullName.value
    ensures p.bio.Some? ==> f.bio == p.bio.value
    ensures p.profilePicture.Some? ==> f.profilePicture == p.profilePicture.value
  {
    Form(OrEmpty(p.fullName), OrEmpty(p.bio), OrEmpty(p.profilePicture))
  }

  /** `handleFileSelect`: a refused picture sets the error (type first, then
      size) and keeps the previous selection; an accepted one clears the error. */
  function FileSelect(st: Editor, file: Option<FileInfo>): (r: Editor)
    ensures file.None? ==> r == st
    ensures file.Some? && ImageProblem(file.value).Some? ==> r == st.(error := ImageProblem(file.value).value)
    ensures file.Some? && ImageProblem(file.value).None? ==> r == st.(error := "", selected := file)
  {
    if file.None? then st
    else
      match ImageProblem(file.value)
      case Some(message) => st.(error := message)
      case None => st.(error := "", selected := file)
  }

  /** The file reader's callbacks. `onloadend` runs after a successful read
      and after a failed one alike, so the cropper opens either way; a failed
      read also sets the error (`onerror`) and leaves the preview empty. */
  function FileRead(st: Editor, ok: bool): (r: Editor)
    ensures r.showCropper
    ensures r.preview <==> ok
    ensures ok ==> r.error == st.error
    ensures !ok ==> r.error == "Failed to read file"
    ensures r.(preview := st.preview, showCropper := st.showCropper, error := st.error) == st
  {
    if ok then st.(preview := true, showCropper := true)
    else st.(error := "Failed to read file", preview := false, showCropper := true)
  }

  /** `handleCropComplete`: keeps whatever the cropper produced and closes it. */
  function CropComplete(st: Editor, blob: Option<Blob>): (r: Editor)
    ensures r.cropped == blob && !r.showCropper
    ensures r.(cropped := st.cropped, showCropper := st.showCropper) == st
  {
    st.(cropped := blob, showCropper := false)
  }

  datatype UpdateRequest = UpdateRequest(userId: Value, fullName: string, bio: string, profilePicture: string)

  /** What a submit did: the picture it uploaded, the update it sent, the
      user record it stored, and the error it shows ("" for none). */
  datatype SubmitResult = SubmitResult(uploaded: Option<Blob>, update: Option<UpdateRequest>,
                                       storedUser: Option<Obj>, error: string)

  const DefaultError := "Failed to update profile"

  /** The stored user after an update: the signed-in user with exactly the
      three edited fields replaced. */
  predicate OverlaidWith(before: Obj, after: Obj, fullName: string, bio: string, picture: string) {
    && after.Keys == before.Keys + {"full_name", "bio", "profile_picture"}
    && after["full_name"] == Str(fullName)
    && after["bio"] == Str(bio)
    && after["profile_picture"] == Str(picture)
    && forall k :: k in before && k != "full_name" && k != "bio" && k != "profile_picture" ==>
         after[k] == before[k]
  }

  /** `handleSubmit`, given the outcomes of the picture upload (read only when
      a cropped picture exists) and of the profile update. */
  function Submit(st: Editor, currentUser: Obj, upload: Fetch<UploadReply>, update: Call): (r: SubmitResult)
    ensures r.uploaded == st.cropped
    ensures r.update.Some? <==> st.cropped.None? || (upload.Fetched? && upload.value.success)
    ensures r.update.Some? ==>
      && r.update.value.userId == Field(currentUser, "id")
      && r.update.value.fullName == st.form.fullName
      && r.update.value.bio == st.form.bio
      && r.update.value.profilePicture == (if st.cropped.Some? then upload.value.url else st.form.profilePicture)
    ensures r.storedUser.Some? <==> r.update.Some? && update.Ok?
    ensures r.storedUser.Some? ==>
      OverlaidWith(currentUser, r.storedUser.value, r.update.value.fullName, r.update.value.bio,
                   r.update.value.profilePicture)
    ensures r.error == "" <==> r.storedUser.Some?
    ensures st.cropped.Some? && upload.FetchFailed? ==> r.error == ErrorText(upload.error, DefaultError)
    ensures st.cropped.Some? && upload.Fetched? && !upload.value.success ==>
      r.error == ErrorText(UploadRejected(upload.value), DefaultError)
    ensures r.update.Some? && update.Fail? ==> r.error == ErrorText(update.error, DefaultError)
  {
    var picture: Option<string> :=
      if st.cropped.None? then Some(st.form.profilePicture)
      else if upload.Fetched? && upload.value.success then Some(upload.value.url)
      else None;
    if picture.None? then
      var e := if upload.FetchFailed? then upload.error else UploadRejected(upload.value);
      SubmitResult(st.cropped, None, None, ErrorText(e, DefaultError))
    else
      var req := UpdateRequest(Field(currentUser, "id"), st.form.fullName, st.form.bio, picture.value);
      match update
      case Fail(e) => SubmitResult(st.cropped, Some(req), None, ErrorText(e, DefaultError))
      case Ok =>
        var updatedUser := currentUser + map["full_name" := Str(st.form.fullName), "bio" := Str(st.form.bio),
                                             "profile_picture" := Str(picture.value)];
        SubmitResult(st.cropped, Some(req), Some(updatedUser), "")
  }

  /** Without a new cropped picture the update keeps the current picture URL,
      and nothing is uploaded. */
  lemma PictureKeptWithoutCrop(st: Editor, currentUser: Obj, upload: Fetch<UploadReply>)
    requires st.cropped.None?
    ensures var r := Submit(st, currentUser, upload, Ok);
      && r.uploaded.None?
      && r.update.Some? && r.update.value.profilePicture == st.form.profilePicture
      && r.storedUser.Some? && r.storedUser.value["profile_picture"] == Str(st.form.profilePicture)
  {
  }

  /** A failed upload sends no update and stores nothing. */
  lemma FailedUploadChangesNothing(st: Editor, currentUser: Obj, e: HttpError, update: Call)
    requires st.cropped.Some?
    ensures var r := Submit(st, currentUser, FetchFailed(e), update);
      r.update.None? && r.storedUser.None? && r.error != ""
  {
  }

  /** Fields of the stored user other than the three edited ones survive the
      update: a submit that reaches the update, with or without a new
      picture, keeps the user's id and username. */
  lemma UpdateKeepsIdentity(st: Editor, currentUser: Obj, upload: Fetch<UploadReply>)
    requires "id" in currentUser && "username" in currentUser
    requires st.cropped.None? || (upload.Fetched? && upload.value.success)
    ensures var r := Submit(st, currentUser, upload, Ok);
      && r.storedUser.Some?
      && r.storedUser.value["id"] == currentUser["id"]
      && r.storedUser.value["username"] == currentUser["username"]
  {
  }
}

=== FILE: entities.dfy ===
/** Records the backend sends and several views share. Ids and parent links
    are kept as JSON values because the source compares them both with `===`
    and through `String(...)`. */
module Entities {
  import opened Js

  /** A post comment. `parentId` is `Null` for a top-level comment. Its text
      arrives under one of three field names; an absent one is "". */
  datatype Comment = Comment(
    id: Value,
    parentId: Value,
    userId: Value,
    username: string,
    comment: string,
    content: string,
    text: string,
    createdAt: string)

  /** A feed or profile post. `isLiked` and `isSaved` are the backend's 0/1 flags. */
  datatype Post = Post(
    id: int,
    userId: int,
    caption: string,
    mediaUrl: string,
    likesCount: int,
    commentsCount: int,
    isLiked: int,
    isSaved: int)
}

=== FILE: home.dfy ===
/** The feed page: the saved-posts map, the two preview comments per post,
    and the like, double-tap and save toggles with their failure rules. */
module Home {
  import opened Js
  import opened Outcomes
  import opened Entities

  /** A post id to flag map (`likedPosts`, `savedPosts`); an absent id reads
      as `undefined`, which is falsy. */
  type Flags = map<int, bool>

  predicate IsSet(flags: Flags, postId: int) {
    postId in flags && flags[postId]
  }

  // ---------------------------------------------------------------------------
  // `loadSavedPosts`

  function SavedIds(saved: seq<Post>): set<int> {
    set i | 0 <= i < |saved| :: saved[i].id
  }

  /** The map `loadSavedPosts` builds: every returned post's id maps to true. */
  method SavedMap(saved: seq<Post>) returns (m: Flags)
    ensures m.Keys == SavedIds(saved)
    ensures forall id :: id in m ==> m[id]
  {
    m := map[];
    var i := 0;
    while i < |saved|
      invariant 0 <= i <= |saved|
      invariant m.Keys == SavedIds(saved[..i])
      invariant forall id :: id in m ==> m[id]
    {
      assert SavedIds(saved[..i + 1]) == SavedIds(saved[..i]) + {saved[i].id} by {
        assert forall k :: 0 <= k < i ==> saved[..i + 1][k] == saved[..i][k];
      }
      m := m[saved[i].id := true];
      i := i + 1;
    }
    assert saved[..i] == saved;
  }

  /** `loadSavedPosts`: a missing `posts` field is an empty list; a failed
      request keeps the current map. */
  method LoadSavedPosts(current: Flags, reply: Fetch<Option<seq<Post>>>) returns (m: Flags)
    ensures reply.FetchFailed? ==> m == current
    ensures reply.Fetched? && reply.value.None? ==> m == map[]
    ensures reply.Fetched? && reply.value.Some? ==>
      m.Keys == SavedIds(reply.value.value) && forall id :: id in m ==> m[id]
  {
    match reply
    case FetchFailed(_) => m := current;
    case Fetched(body) =>
      var saved := if body.Some? then body.value else [];
      m := SavedMap(saved);
  }

  // ---------------------------------------------------------------------------
  // Preview comments.

  predicate IsTopLevel(c: Comment) {
    !Truthy(c.parentId)
  }

  /** `comments.filter(comment => !comment.parent_id)`. */
  function TopLevel(cs: seq<Comment>): (r: seq<Comment>)
    ensures |r| <= |cs|
  {
    if |cs| == 0 then []
    else if IsTopLevel(cs[|cs| - 1]) then TopLevel(cs[..|cs| - 1]) + [cs[|cs| - 1]]
    else TopLevel(cs[..|cs| - 1])
  }

  /** The filter keeps top-level comments only. */
  lemma {:induction false} TopLevelKeepsOnlyTop(cs: seq<Comment>)
    ensures forall k :: 0 <= k < |TopLevel(cs)| ==> IsTopLevel(TopLevel(cs)[k])
    decreases |cs|
  {
    if |cs| > 0 {
      TopLevelKeepsOnlyTop(cs[..|cs| - 1]);
    }
  }

  /** Filtering distributes over concatenation. */
  lemma {:induction false} TopLevelAppend(a: seq<Comment>, b: seq<Comment>)
    ensures TopLevel(a + b) == TopLevel(a) + TopLevel(b)
    decreases |b|
  {
    if |b| > 0 {
      var b' := b[..|b| - 1];
      assert (a + b)[..|a + b| - 1] == a + b';
      TopLevelAppend(a, b');
    } else {
      assert a + b == a;
    }
  }

  /** A run of replies contributes nothing. */
  lemma {:induction false} TopLevelOfReplies(cs: seq<Comment>)
    requires forall k :: 0 <= k < |cs| ==> !IsTopLevel(cs[k])
    ensures TopLevel(cs) == []
    decreases |cs|
  {
    if |cs| > 0 {
      TopLevelOfReplies(cs[..|cs| - 1]);
    }
  }

  /** `topLevelComments.slice(0, 2)`. */
  function LatestComments(cs: seq<Comment>): (r: seq<Comment>)
    ensures |r| <= 2
    ensures forall k :: 0 <= k < |r| ==> IsTopLevel(r[k])
  {
    TopLevelKeepsOnlyTop(cs);
    var top := TopLevel(cs);
    if |top| <= 2 then top else top[..2]
  }

  /** With only replies before the first top-level comment `cs[i]` and
      between it and the second one `cs[j]`, the previews are exactly those
      two, in input order, whatever follows. */
  lemma FirstTwoTopLevel(cs: seq<Comment>, i: nat, j: nat)
    requires i < j < |cs| && IsTopLevel(cs[i]) && IsTopLevel(cs[j])
    requires forall k :: 0 <= k < j && k != i ==> !IsTopLevel(cs[k])
    ensures LatestComments(cs) == [cs[i], cs[j]]
  {
    OneAfterReplies(cs, 0, i);
    OneAfterReplies(cs, i + 1, j);
    SplitThree(cs, i + 1, j + 1);
    LatestOfTwo(cs, cs[i], cs[j], TopLevel(cs[j + 1..]));
  }

  /** With exactly one top-level comment `cs[i]`, the previews are that
      comment alone. */
  lemma OneTopLevel(cs: seq<Comment>, i: nat)
    requires i < |cs| && IsTopLevel(cs[i])
    requires forall k :: 0 <= k < |cs| && k != i ==> !IsTopLevel(cs[k])
    ensures LatestComments(cs) == [cs[i]]
  {
    OnlyTopLevel(cs, i);
  }

  /** A list whose only top-level comment is `cs[i]` filters to it. */
  lemma OnlyTopLevel(cs: seq<Comment>, i: nat)
    requires i < |cs| && IsTopLevel(cs[i])
    requires forall k :: 0 <= k < |cs| && k != i ==> !IsTopLevel(cs[k])
    ensures TopLevel(cs) == [cs[i]]
  {
    OneAfterReplies(cs, 0, i);
    RepliesFrom(cs, i + 1);
    Pieces(cs, i + 1, i + 1);
    TopLevelAppend(cs[..i + 1], cs[i + 1..]);
  }

  /** A tail of replies filters to nothing. */
  lemma RepliesFrom(cs: seq<Comment>, from: nat)
    requires from <= |cs|
    requires forall k :: from <= k < |cs| ==> !IsTopLevel(cs[k])
    ensures TopLevel(cs[from..]) == []
  {
    var after := cs[from..];
    assert forall k :: 0 <= k < |after| ==> after[k] == cs[from + k];
    TopLevelOfReplies(after);
  }

  /** A list whose filtered form starts with `a` and `b` previews those two. */
  lemma LatestOfTwo(cs: seq<Comment>, a: Comment, b: Comment, rest: seq<Comment>)
    requires TopLevel(cs) == [a] + ([b] + rest)
    ensures LatestComments(cs) == [a, b]
  {
    FirstTwo(a, b, rest);
  }

  /** A run of replies `cs[from..to]` followed by the top-level `cs[to]`
      filters to that one comment. */
  lemma OneAfterReplies(cs: seq<Comment>, from: nat, to: nat)
    requires from <= to < |cs| && IsTopLevel(cs[to])
    requires forall k :: from <= k < to ==> !IsTopLevel(cs[k])
    ensures TopLevel(cs[from..to + 1]) == [cs[to]]
  {
    var replies := cs[from..to];
    assert cs[from..to + 1] == replies + [cs[to]];
    TopLevelOfReplies(replies);
    TopLevelAppend(replies, [cs[to]]);
    assert [cs[to]][..0] == [];
  }

  /** Filtering three consecutive pieces of a list. */
  lemma SplitThree(cs: seq<Comment>, m: nat, n: nat)
    requires m <= n <= |cs|
    ensures TopLevel(cs) == TopLevel(cs[0..m]) + (TopLevel(cs[m..n]) + TopLevel(cs[n..]))
  {
    Pieces(cs, m, n);
    TopLevelAppend(cs[..m], cs[m..]);
    TopLevelAppend(cs[m..n], cs[n..]);
  }

  /** A list is the concatenation of its three pieces around `m` and `n`. */
  lemma Pieces<T>(cs: seq<T>, m: nat, n: nat)
    requires m <= n <= |cs|
    ensures cs == cs[..m] + cs[m..] && cs[m..] == cs[m..n] + cs[n..] && cs[0..m] == cs[..m]
  {
  }

  /** The first two elements of a list that starts with `a` and `b`. */
  lemma FirstTwo<T>(a: T, b: T, rest: seq<T>)
    ensures |[a] + ([b] + rest)| >= 2 && ([a] + ([b] + rest))[..2] == [a, b]
  {
  }

  /** A list of replies only gives no previews. */
  lemma RepliesGiveNoPreviews(cs: seq<Comment>)
    requires forall k :: 0 <= k < |cs| ==> !IsTopLevel(cs[k])
    ensures LatestComments(cs) == []
  {
    TopLevelOfReplies(cs);
  }

  /** `loadLatestComments`: the preview map gains the post's entry; a failed
      request leaves it as it was. */
  function LoadLatestComments(previews: map<int, seq<Comment>>, postId: int, reply: Fetch<Option<seq<Comment>>>)
    : (r: map<int, seq<Comment>>)
    ensures reply.FetchFailed? ==> r == previews
    ensures reply.Fetched? ==>
      && r.Keys == previews.Keys + {postId}
      && r[postId] == LatestComments(if reply.value.Some? then reply.value.value else [])
      && forall id :: id in previews && id != postId ==> r[id] == previews[id]
  {
    match reply
    case FetchFailed(_) => previews
    case Fetched(body) => previews[postId := LatestComments(if body.Some? then body.value else [])]
  }

  /** The posts `loadFeed` asks previews for: those with a positive comment count. */
  function PreviewRequests(posts: seq<Post>): (ids: seq<int>)
    ensures |ids| <= |posts|
    ensures forall id :: id in ids <==> exists k :: 0 <= k < |posts| && posts[k].id == id && posts[k].commentsCount > 0
  {
    if |posts| == 0 then []
    else
      var rest := PreviewRequests(posts[1..]);
      assert forall k :: 1 <= k < |posts| ==> posts[k] == posts[1..][k - 1];
      if posts[0].commentsCount > 0 then [posts[0].id] + rest else rest
  }

  // ---------------------------------------------------------------------------
  // Like, double tap, save.

  /** The flag map with one entry set, the others unchanged. */
  predicate OnlyChanged(before: Flags, after: Flags, postId: int) {
    && after.Keys == before.Keys + {postId}
    && forall id :: id in before && id != postId ==> after[id] == before[id]
  }

  /** `handleLike`: the flag flips after the call succeeds and is untouched
      when it fails. The feed reload that follows is a server refresh. */
  function HandleLike(liked: Flags, postId: int, outcome: Call): (r: Flags)
    ensures outcome.Fail? ==> r == liked
    ensures outcome.Ok? ==> OnlyChanged(liked, r, postId) && (IsSet(r, postId) <==> !IsSet(liked, postId))
  {
    if IsSet(liked, postId) then
      if outcome.Ok? then liked[postId := false] else liked
    else
      if outcome.Ok? then liked[postId := true] else liked
  }

  /** `handleDoubleTap`: likes a post that is not liked, and does nothing
      (not even a call) to one that is. */
  function DoubleTap(liked: Flags, postId: int, outcome: Call): (r: Flags)
    ensures IsSet(liked, postId) ==> r == liked
    ensures !IsSet(liked, postId) ==> r == HandleLike(liked, postId, outcome)
  {
    if !IsSet(liked, postId) then HandleLike(liked, postId, outcome) else liked
  }

  /** A double tap only ever likes: a liked post stays liked, and a successful
      double tap leaves the post liked whatever it was before. */
  lemma DoubleTapNeverUnlikes(liked: Flags, postId: int, outcome: Call)
    ensures IsSet(liked, postId) ==> IsSet(DoubleTap(liked, postId, outcome), postId)
    ensures outcome.Ok? ==> IsSet(DoubleTap(liked, postId, outcome), postId)
  {
  }

  /** `handleSavePost`: the flag flips after success; a 409 answer ("already
      saved") sets it to true whichever way the toggle went; any other
      failure leaves the map as it was. */
  function HandleSavePost(saved: Flags, postId: int, outcome: Call): (r: Flags)
    ensures outcome.Ok? ==> OnlyChanged(saved, r, postId) && (IsSet(r, postId) <==> !IsSet(saved, postId))
    ensures outcome.Fail? && outcome.error.status == Some(409) ==> OnlyChanged(saved, r, postId) && IsSet(r, postId)
    ensures outcome.Fail? && outcome.error.status != Some(409) ==> r == saved
  {
    match outcome
    case Ok => if IsSet(saved, postId) then saved[postId := false] else saved[postId := true]
    case Fail(err) => if err.status == Some(409) then saved[postId := true] else saved
  }

  /** Trying to unsave and getting a 409 back marks the post saved. */
  lemma ConflictMeansSaved(saved: Flags, postId: int, err: HttpError)
    requires IsSet(saved, postId) && err.status == Some(409)
    ensures HandleSavePost(saved, postId, Fail(err)) == saved
  {
  }

  // ---------------------------------------------------------------------------
  // The comments link under a post.

  /** Hidden at zero comments, "View comments" for one or two, "View all N
      comments" beyond. */
  function CommentsLinkLabel(commentsCount: int): (r: Option<string>)
    ensures r.None? <==> commentsCount <= 0
    ensures 0 < commentsCount <= 2 ==> r == Some("View comments")
    ensures commentsCount > 2 ==> r == Some("View all " + IntToString(commentsCount) + " comments")
  {
    if commentsCount > 0 then
      Some(if commentsCount > 2 then "View all " + IntToString(commentsCount) + " comments" else "View comments")
    else None
  }
}

=== FILE: js.dfy ===
/** The few JavaScript runtime behaviours the client's handlers rely on:
    optional values, loosely-typed JSON values and their truthiness,
    `String(x)`, `String.prototype.trim` and `startsWith`. */
module Js {

  datatype Option<+T> = None | Some(value: T)

  /** A JSON scalar as the backend sends it. `Null` stands for both `null`
      and `undefined` (an absent field). */
  datatype Value = Null | Bool(b: bool) | Num(n: int) | Str(s: string)

  /** A JSON object: a field name to value map. Object spread `{...a, ...b}`
      is `a + b` (the right operand wins on shared keys). */
  type Obj = map<string, Value>

  /** JavaScript truthiness: `null`, `false`, `0` and `""` are falsy. */
  predicate Truthy(v: Value) {
    match v
    case Null => false
    case Bool(b) => b
    case Num(n) => n != 0
    case Str(s) => s != ""
  }

  /** The field of an object, `undefined` (here `Null`) when it is absent. */
  function Field(o: Obj, k: string): (v: Value)
    ensures k !in o ==> v == Null
    ensures k in o ==> v == o[k]
  {
    if k in o then o[k] else Null
  }

  // ---------------------------------------------------------------------------
  // Decimal rendering of integers, as `String(n)` and template literals do it.

  function DigitChar(d: int): (c: char)
    requires 0 <= d < 10
    ensures '0' <= c <= '9'
  {
    ('0' as int + d) as char
  }

  predicate IsDigit(c: char) {
    '0' <= c <= '9'
  }

  function NatToString(n: nat): (s: string)
    decreases n
  {
    if n < 10 then [DigitChar(n)] else NatToString(n / 10) + [DigitChar(n % 10)]
  }

  function IntToString(n: int): (s: string)
  {
    if n < 0 then "-" + NatToString(-n) else NatToString(n)
  }

  /** A natural renders as a non-empty run of digits, a single one below ten. */
  lemma {:induction false} NatToStringDigits(n: nat)
    ensures |NatToString(n)| >= 1
    ensures forall i :: 0 <= i < |NatToString(n)| ==> IsDigit(NatToString(n)[i])
    ensures n < 10 <==> |NatToString(n)| == 1
    decreases n
  {
    if n >= 10 {
      NatToStringDigits(n / 10);
    }
  }

  /** A negative integer renders with a leading minus sign, any other one with digits only. */
  lemma IntToStringShape(n: int)
    ensures |IntToString(n)| >= 1
    ensures n >= 0 ==> forall i :: 0 <= i < |IntToString(n)| ==> IsDigit(IntToString(n)[i])
    ensures n < 0 ==> IntToString(n)[0] == '-'
  {
    if n >= 0 {
      NatToStringDigits(n);
    }
  }

  lemma DigitCharInjective(a: int, b: int)
    requires 0 <= a < 10 && 0 <= b < 10
    requires DigitChar(a) == DigitChar(b)
    ensures a == b
  {
  }

  /** Distinct naturals have distinct decimal renderings. */
  lemma {:induction false} NatToStringInjective(a: nat, b: nat)
    requires NatToString(a) == NatToString(b)
    ensures a == b
    decreases a
  {
    var s := NatToString(a);
    NatToStringDigits(a);
    NatToStringDigits(b);
    if a < 10 {
      assert b < 10;
      DigitCharInjective(a, b);
    } else {
      assert b >= 10;
      assert NatToString(a) == NatToString(a / 10) + [DigitChar(a % 10)];
      assert NatToString(b) == NatToString(b / 10) + [DigitChar(b % 10)];
      var k := |s| - 1;
      assert NatToString(a / 10) == s[..k];
      assert NatToString(b / 10) == s[..k];
      assert DigitChar(a % 10) == s[k] == DigitChar(b % 10);
      DigitCharInjective(a % 10, b % 10);
      NatToStringInjective(a / 10, b / 10);
    }
  }

  /** Distinct integers have distinct decimal renderings. */
  lemma IntToStringInjective(a: int, b: int)
    requires IntToString(a) == IntToString(b)
    ensures a == b
  {
    IntToStringShape(a);
    IntToStringShape(b);
    if a < 0 && b < 0 {
      assert NatToString(-a) == IntToString(a)[1..];
      assert NatToString(-b) == IntToString(b)[1..];
      NatToStringInjective(-a, -b);
    } else if a >= 0 && b >= 0 {
      NatToStringInjective(a, b);
    }
  }

  // ---------------------------------------------------------------------------
  // `String(x)`, and the two ways the source compares ids.

  /** `String(v)` for a JSON scalar. */
  function ToStr(v: Value): string {
    match v
    case Null => "null"
    case Bool(b) => if b then "true" else "false"
    case Num(n) => IntToString(n)
    case Str(s) => s
  }

  /** `String(a) === String(b)`: the comparison used where the source
      guards against ids arriving as numbers in one place and strings in another. */
  predicate LooseIdEq(a: Value, b: Value) {
    ToStr(a) == ToStr(b)
  }

  /** For numeric ids, comparing as strings is comparing the numbers. */
  lemma LooseIdEqOnNumbers(a: int, b: int)
    ensures LooseIdEq(Num(a), Num(b)) <==> a == b
  {
    if LooseIdEq(Num(a), Num(b)) {
      IntToStringInjective(a, b);
    }
  }

  /** ... and it also equates a number with its decimal string, which `===` does not. */
  lemma LooseIdEqAcrossTypes(n: int)
    ensures LooseIdEq(Num(n), Str(IntToString(n)))
    ensures Num(n) != Str(IntToString(n))
  {
  }

  // ---------------------------------------------------------------------------
  // `String.prototype.trim`.

  /** The ECMAScript WhiteSpace and LineTerminator code points that `trim` removes. */
  predicate IsSpace(c: char) {
    c == '\t' || c == '\n' || c == '\U{000B}' || c == '\U{000C}' || c == '\r' || c == ' '
    || c == '\U{00A0}' || c == '\U{1680}' || ('\U{2000}' <= c <= '\U{200A}')
    || c == '\U{2028}' || c == '\U{2029}' || c == '\U{202F}' || c == '\U{205F}'
    || c == '\U{3000}' || c == '\U{FEFF}'
  }

  predicate AllSpace(s: string) {
    forall i :: 0 <= i < |s| ==> IsSpace(s[i])
  }

  function TrimStart(s: string): (r: string)
    ensures |r| <= |s| && r == s[|s| - |r|..]
    ensures AllSpace(s[..|s| - |r|])
    ensures r != [] ==> !IsSpace(r[0])
  {
    if |s| > 0 && IsSpace(s[0]) then
      var r := TrimStart(s[1..]);
      assert s[..|s| - |r|] == [s[0]] + s[1..][..|s[1..]| - |r|];
      r
    else s
  }

  function TrimEnd(s: string): (r: string)
    ensures |r| <= |s| && r == s[..|r|]
    ensures AllSpace(s[|r|..])
    ensures r != [] ==> !IsSpace(r[|r| - 1])
  {
    if |s| > 0 && IsSpace(s[|s| - 1]) then
      var r := TrimEnd(s[..|s| - 1]);
      assert s[|r|..] == s[..|s| - 1][|r|..] + [s[|s| - 1]];
      r
    else s
  }

  /** `s.trim()`: `s` with its leading and trailing white space removed;
      what is left neither starts nor ends with white space. */
  function Trim(s: string): (r: string)
    ensures exists i {:trigger s[i..]} :: 0 <= i <= |s| - |r| && s[i..][..|r|] == r
              && AllSpace(s[..i]) && AllSpace(s[i..][|r|..])
    ensures r != [] ==> !IsSpace(r[0]) && !IsSpace(r[|r| - 1])
    ensures r == [] <==> AllSpace(s)
  {
    TrimSlice(s);
    TrimEmpty(s);
    TrimEnd(TrimStart(s))
  }

  /** The trimmed string sits in `s` between two runs of white space. */
  lemma TrimSlice(s: string)
    ensures var r := TrimEnd(TrimStart(s));
      exists i {:trigger s[i..]} :: 0 <= i <= |s| - |r| && s[i..][..|r|] == r
        && AllSpace(s[..i]) && AllSpace(s[i..][|r|..])
  {
    var t := TrimStart(s);
    SliceBetweenSpaces(s, t, TrimEnd(t));
  }

  /** A prefix `r` of a suffix `t` of `s`, where both cut-off parts are white
      space, sits in `s` between two runs of white space. */
  lemma SliceBetweenSpaces(s: string, t: string, r: string)
    requires |t| <= |s| && t == s[|s| - |t|..] && AllSpace(s[..|s| - |t|])
    requires |r| <= |t| && r == t[..|r|] && AllSpace(t[|r|..])
    ensures exists i {:trigger s[i..]} :: 0 <= i <= |s| - |r| && s[i..][..|r|] == r
              && AllSpace(s[..i]) && AllSpace(s[i..][|r|..])
  {
    var i := |s| - |t|;
    assert s[i..] == t;
  }

  /** Trimming leaves nothing exactly when the string is all white space. */
  lemma TrimEmpty(s: string)
    ensures TrimEnd(TrimStart(s)) == [] <==> AllSpace(s)
  {
    var t := TrimStart(s);
    var r := TrimEnd(t);
    var i := |s| - |t|;
    assert s[i..] == t;
    if r == [] {
      assert t[|r|..] == t;
      SpaceSplit(s, i);
    } else {
      assert r[0] == t[0] == s[i];
    }
  }

  /** A string whose two pieces around `i` are white space is white space. */
  lemma SpaceSplit(s: string, i: nat)
    requires i <= |s| && AllSpace(s[..i]) && AllSpace(s[i..])
    ensures AllSpace(s)
  {
    forall k | 0 <= k < |s|
      ensures IsSpace(s[k])
    {
      if k < i {
        assert s[k] == s[..i][k];
      } else {
        assert s[k] == s[i..][k - i];
      }
    }
  }

  /** `s.startsWith(prefix)`. */
  predicate StartsWith(s: string, prefix: string) {
    |prefix| <= |s| && s[..|prefix|] == prefix
  }
}

=== FILE: messages.dfy ===
/** The direct-messages page: the step run by every poll of the open
    conversation, the one-time selection from navigation state, the send
    guard and the avatar grouping of the transcript. */
module Messages {
  import opened Js
  import opened Outcomes

  datatype Message = Message(id: Value, senderId: Value, text: string)

  datatype Conversation = Conversation(conversationId: Value, otherUserId: Value, username: string, unreadCount: int)

  // ---------------------------------------------------------------------------
  // The poll step (`loadMessages`).

  /** The transcript and the message count seen by the previous successful
      fetch. The count starts at 0 when the page mounts and only a fetch
      changes it: selecting another conversation, or none, leaves it as it
      was, so the first fetch of a newly selected conversation is compared
      with the count of the one shown before. */
  datatype Poll = Poll(messages: seq<Message>, previousCount: int)

  /** One run of `loadMessages`: the new poll state and whether the
      notification sound is played. `fetched` is the `messages` field of the
      response, `None` when it is absent. */
  function LoadMessages(st: Poll, selected: bool, viewer: Value, outcome: Fetch<Option<seq<Message>>>)
    : (r: (Poll, bool))
    ensures !selected || outcome.FetchFailed? ==> r == (st, false)
    ensures selected && outcome.Fetched? ==>
      var got := if outcome.value.Some? then outcome.value.value else [];
      && r.0 == Poll(got, |got|)
      && (r.1 <==> |got| > st.previousCount && st.previousCount > 0
                   && !LooseIdEq(got[|got| - 1].senderId, viewer))
  {
    if !selected then (st, false)
    else match outcome
      case FetchFailed(_) => (st, false)
      case Fetched(body) =>
        var newMessages := if body.Some? then body.value else [];
        var notify :=
          if |newMessages| > st.previousCount && st.previousCount > 0 then
            var latest := newMessages[|newMessages| - 1];
            ToStr(latest.senderId) != ToStr(viewer)
          else false;
        (Poll(newMessages, |newMessages|), notify)
  }

  /** The first fetch after the page mounts (previous count 0) never notifies. */
  lemma FirstFetchNeverNotifies(st: Poll, viewer: Value, outcome: Fetch<Option<seq<Message>>>)
    requires st.previousCount == 0
    ensures !LoadMessages(st, true, viewer, outcome).1
  {
  }

  /** Detection is by count: a fetch that returns no more messages than
      last time never notifies, whatever the messages are. */
  lemma SameCountNeverNotifies(st: Poll, viewer: Value, got: seq<Message>)
    requires |got| <= st.previousCount
    ensures !LoadMessages(st, true, viewer, Fetched(Some(got))).1
  {
  }

  /** Fetching twice, where the second fetch brings one more message: it
      notifies exactly once when that message is from the other participant,
      and never when it is the viewer's own. */
  lemma TwoFetches(viewer: Value, first: seq<Message>, extra: Message)
    requires |first| > 0
    ensures var (p1, n1) := LoadMessages(Poll([], 0), true, viewer, Fetched(Some(first)));
            var (p2, n2) := LoadMessages(p1, true, viewer, Fetched(Some(first + [extra])));
            && !n1
            && p2.previousCount == |first| + 1
            && (n2 <==> !LooseIdEq(extra.senderId, viewer))
  {
  }

  /** Switching conversations does not reset the count: after a fetch of one
      conversation, the first fetch of another notifies iff it holds more
      messages than the first one did and its last message is not the
      viewer's. */
  lemma CountCarriesAcrossSwitch(viewer: Value, shown: seq<Message>, next: seq<Message>)
    requires |shown| > 0
    ensures var p := LoadMessages(Poll([], 0), true, viewer, Fetched(Some(shown))).0;
            && p.previousCount == |shown|
            && (LoadMessages(p, true, viewer, Fetched(Some(next))).1
                <==> |next| > |shown| && !LooseIdEq(next[|next| - 1].senderId, viewer))
  {
  }

  // ---------------------------------------------------------------------------
  // Selection from navigation state.

  /** `location.state`: the user a profile or search page asked to message. */
  datatype NavRequest = NavRequest(selectedUserId: Value, selectedUsername: string)

  datatype NavAction = NoAction | Select(conversation: Conversation) | CreateWith(userId: Value, username: string)

  /** `conversations.find(c => String(c.other_user_id) === String(target))`. */
  function FindByUser(conversations: seq<Conversation>, target: Value): (r: Option<Conversation>)
    ensures r.None? <==> forall i :: 0 <= i < |conversations| ==> !LooseIdEq(conversations[i].otherUserId, target)
    ensures r.Some? ==> exists i :: 0 <= i < |conversations| && conversations[i] == r.value
                          && LooseIdEq(r.value.otherUserId, target)
                          && forall j :: 0 <= j < i ==> !LooseIdEq(conversations[j].otherUserId, target)
  {
    if |conversations| == 0 then None
    else if ToStr(conversations[0].otherUserId) == ToStr(target) then
      assert conversations[0] == conversations[0];
      Some(conversations[0])
    else
      var r := FindByUser(conversations[1..], target);
      assert forall i :: 1 <= i < |conversations| ==> conversations[i] == conversations[1..][i - 1];
      r
  }

  /** The navigation-state effect: `handled` is the ref that makes it run
      at most once. Returns the new `handled` and what the effect does. */
  function NavStep(loading: bool, handled: bool, nav: Option<NavRequest>, conversations: seq<Conversation>)
    : (r: (bool, NavAction))
    ensures loading || handled ==> r == (handled, NoAction)
    ensures r.1 != NoAction ==> !loading && !handled && r.0
    ensures !loading && !handled && nav.Some? && Truthy(nav.value.selectedUserId) ==>
      && r.0
      && var found := FindByUser(conversations, nav.value.selectedUserId);
         (found.Some? ==> r.1 == Select(found.value))
         && (found.None? ==> r.1 == CreateWith(nav.value.selectedUserId, nav.value.selectedUsername))
    ensures nav.None? || !Truthy(nav.value.selectedUserId) ==> r == (handled, NoAction)
  {
    if loading then (handled, NoAction)
    else if handled then (handled, NoAction)
    else if nav.None? || !Truthy(nav.value.selectedUserId) then (handled, NoAction)
    else
      var conv := FindByUser(conversations, nav.value.selectedUserId);
      if conv.Some? then (true, Select(conv.value))
      else (true, CreateWith(nav.value.selectedUserId, nav.value.selectedUsername))
  }

  /** Once the effect has acted, no later run acts again. */
  lemma NavActsAtMostOnce(loading: bool, handled: bool, nav: Option<NavRequest>, cs: seq<Conversation>,
                          loading2: bool, nav2: Option<NavRequest>, cs2: seq<Conversation>)
    requires NavStep(loading, handled, nav, cs).1 != NoAction
    ensures NavStep(loading2, NavStep(loading, handled, nav, cs).0, nav2, cs2).1 == NoAction
  {
  }

  /** `createNewConversation`: after creating the conversation the list is
      reloaded (`loadConversationsFresh`), and the conversation with that user
      is selected if the reloaded list has it. Returns the selection and the
      sidebar list: a successful reload replaces the list, a failed create or
      reload leaves it and selects nothing. */
  function CreateThenSelect(conversations: seq<Conversation>, created: Call,
                            reloaded: Fetch<Option<seq<Conversation>>>, userId: Value)
    : (r: (Option<Conversation>, seq<Conversation>))
    ensures created.Fail? || reloaded.FetchFailed? ==> r == (None, conversations)
    ensures r.0.Some? ==> LooseIdEq(r.0.value.otherUserId, userId) && r.0.value in r.1
    ensures created.Ok? && reloaded.Fetched? ==>
      && r.1 == (if reloaded.value.Some? then reloaded.value.value else [])
      && r.0 == FindByUser(r.1, userId)
    ensures created.Ok? && reloaded.Fetched? && reloaded.value.None? ==> r == (None, [])
  {
    if created.Fail? || reloaded.FetchFailed? then (None, conversations)
    else
      var updated := if reloaded.value.Some? then reloaded.value.value else [];
      (FindByUser(updated, userId), updated)
  }

  // ---------------------------------------------------------------------------
  // Sending.

  datatype SendRequest = SendRequest(conversationId: Value, senderId: Value, receiverId: Value, text: string)

  /** `handleSendMessage`: nothing is sent for a blank draft or without a
      selected conversation; the draft is sent as typed (untrimmed) and
      cleared only after the send succeeds. */
  function SendMessage(draft: string, selected: Option<Conversation>, viewer: Value, outcome: Call)
    : (r: (Option<SendRequest>, string))
    ensures r.0.None? <==> AllSpace(draft) || selected.None?
    ensures r.0.None? ==> r.1 == draft
    ensures r.0.Some? ==> r.0.value == SendRequest(selected.value.conversationId, viewer,
                                                   selected.value.otherUserId, draft)
    ensures r.0.Some? ==> r.1 == (if outcome.Ok? then "" else draft)
    ensures r.1 == "" <==> draft == "" || (r.0.Some? && outcome.Ok?)
  {
    if Trim(draft) == "" || selected.None? then (None, draft)
    else
      var req := SendRequest(selected.value.conversationId, viewer, selected.value.otherUserId, draft);
      if outcome.Ok? then (Some(req), "") else (Some(req), draft)
  }

  // ---------------------------------------------------------------------------
  // Avatar grouping in the transcript.

  /** `showAvatar`: the first message, and every message whose sender differs
      (`!==`) from the previous message's sender. */
  predicate ShowAvatar(messages: seq<Message>, i: nat)
    requires i < |messages|
  {
    i == 0 || messages[i - 1].senderId != messages[i].senderId
  }

  /** The avatar that heads the group message `i` belongs to: the last avatar
      at or before `i`; every message from there to `i` has its sender. */
  function GroupHead(messages: seq<Message>, i: nat): (h: nat)
    requires i < |messages|
    ensures h <= i && ShowAvatar(messages, h)
    ensures forall k :: h <= k <= i ==> messages[k].senderId == messages[h].senderId
    ensures forall k :: h < k <= i ==> !ShowAvatar(messages, k)
  {
    if ShowAvatar(messages, i) then i else GroupHead(messages, i - 1)
  }

  /** Avatars compare senders with `===`: a sender id that arrives once as a
      number and once as its string starts a new group, although the
      notification check treats the two as the same user. */
  lemma MixedIdTypesSplitGroups(a: Message, b: Message)
    requires a.senderId == Num(7) && b.senderId == Str("7")
    ensures ShowAvatar([a, b], 1)
    ensures LooseIdEq(a.senderId, b.senderId)
  {
    assert NatToString(7) == "7";
  }
}

=== FILE: outcomes.dfy ===
/** How a call to the REST backend can end, as seen by a handler that awaits
    it. The HTTP client itself is not part of this model: each handler takes
    the outcome of its calls as an input. */
module Outcomes {
  import opened Js

  /** A rejected request. `status` is the HTTP status when a response arrived
      (`err.response.status`), `responseMessage` the response body's `message`
      field, `message` the error's own `err.message`; an absent text is "". */
  datatype HttpError = HttpError(status: Option<int>, responseMessage: string, message: string)

  /** A call whose response body the handler ignores. */
  datatype Call = Ok | Fail(error: HttpError)

  /** A call whose response body the handler reads. */
  datatype Fetch<T> = Fetched(value: T) | FetchFailed(error: HttpError)

  /** The first non-empty text of a chain `a || b || c`, or "" when all are empty. */
  function FirstNonEmpty(options: seq<string>): (r: string)
    ensures r == "" <==> forall i :: 0 <= i < |options| ==> options[i] == ""
    ensures forall i | 0 <= i < |options| && options[i] != "" &&
              (forall j :: 0 <= j < i ==> options[j] == "") :: r == options[i]
  {
    if |options| == 0 then ""
    else if options[0] != "" then options[0]
    else
      var r := FirstNonEmpty(options[1..]);
      assert forall i :: 1 <= i < |options| ==> options[i] == options[1..][i - 1];
      r
  }

  /** The text a failed upload or update shows: the response's message, then
      the error's message, then the handler's default. */
  function ErrorText(e: HttpError, fallback: string): (r: string)
    ensures e.responseMessage != "" ==> r == e.responseMessage
    ensures e.responseMessage == "" && e.message != "" ==> r == e.message
    ensures e.responseMessage == "" && e.message == "" ==> r == fallback
  {
    var options := [e.responseMessage, e.message, fallback];
    var r := FirstNonEmpty(options);
    assert options[0] == e.responseMessage && options[1] == e.message && options[2] == fallback;
    r
  }

  /** A file chosen in a file input: its MIME type and its size in bytes. */
  datatype FileInfo = FileInfo(mimeType: string, size: int)

  const MiB: int := 1024 * 1024

  /** The body of the upload endpoint's answer. */
  datatype UploadReply = UploadReply(success: bool, message: string, url: string)

  /** The error a handler throws when the upload answer is not a success:
      `new Error(message || 'Upload failed')`, which carries no response. */
  function UploadRejected(reply: UploadReply): (e: HttpError)
    ensures e.status.None? && e.responseMessage == ""
    ensures e.message == if reply.message != "" then reply.message else "Upload failed"
  {
    var options := [reply.message, "Upload failed"];
    assert options[0] == reply.message && options[1] != "";
    HttpError(None, "", FirstNonEmpty(options))
  }

  /** Whatever default the handler's catch has, a rejected upload shows the
      server's message, or "Upload failed" when there is none. */
  lemma UploadRejectedText(reply: UploadReply, fallback: string)
    ensures ErrorText(UploadRejected(reply), fallback) != ""
    ensures reply.message != "" ==> ErrorText(UploadRejected(reply), fallback) == reply.message
    ensures reply.message == "" ==> ErrorText(UploadRejected(reply), fallback) == "Upload failed"
  {
  }

  // ---------------------------------------------------------------------------
  // Picture selection (profile page and profile editor share the rules).

  const MaxImageBytes: int := 10 * MiB

  /** Why a chosen picture is refused, if it is: the MIME type is checked
      before the size. */
  function ImageProblem(file: FileInfo): (r: Option<string>)
    ensures r.None? <==> StartsWith(file.mimeType, "image/") && file.size <= MaxImageBytes
    ensures !StartsWith(file.mimeType, "image/") ==> r == Some("Please select an image file")
    ensures StartsWith(file.mimeType, "image/") && file.size > MaxImageBytes ==>
              r == Some("Image size must be less than 10MB")
  {
    if !StartsWith(file.mimeType, "image/") then Some("Please select an image file")
    else if file.size > 10 * 1024 * 1024 then Some("Image size must be less than 10MB")
    else None
  }

  /** The type check wins: an oversized file that is not an image is
      refused for its type. */
  lemma TypeCheckedBeforeSize()
    ensures ImageProblem(FileInfo("video/mp4", 20 * MiB)) == Some("Please select an image file")
    ensures ImageProblem(FileInfo("image/png", 20 * MiB)) == Some("Image size must be less than 10MB")
    ensures ImageProblem(FileInfo("image/png", 10 * MiB)) == None
  {
    assert !StartsWith("video/mp4", "image/") by {
      assert "video/mp4"[0] != "image/"[0];
    }
    assert "image/png"[..6] == "image/";
  }
}

=== FILE: profile.dfy ===
/** The profile page's local updates: like and save flags applied to the
    three post lists and the open post, the follow toggle, the tab choice
    and the profile-picture selection. */
module Profile {
  import opened Js
  import opened Outcomes
  import opened Entities

  /** The page's post lists and the post open in the full-post view. */
  datatype ProfileState = ProfileState(posts: seq<Post>, savedPosts: seq<Post>, likedPosts: seq<Post>,
                                       fullPost: Option<Post>)

  // ---------------------------------------------------------------------------
  // Likes.

  /** One post after a like (`wasLiked` false) or an unlike (`wasLiked` true). */
  function LikeOne(p: Post, wasLiked: bool): Post {
    p.(isLiked := if wasLiked then 0 else 1,
       likesCount := if wasLiked then p.likesCount - 1 else p.likesCount + 1)
  }

  /** The list-level contract of the like update: same length, the posts with
      another id untouched, each post with the id liked or unliked. */
  predicate LikeApplied(before: seq<Post>, after: seq<Post>, postId: int, wasLiked: bool) {
    && |after| == |before|
    && forall i :: 0 <= i < |before| ==>
         if before[i].id == postId then
           && after[i].isLiked == (if wasLiked then 0 else 1)
           && after[i].likesCount == before[i].likesCount + (if wasLiked then -1 else 1)
           && after[i].(isLiked := before[i].isLiked, likesCount := before[i].likesCount) == before[i]
         else after[i] == before[i]
  }

  /** `updatePosts` of `handleLike`. */
  function UpdateLikes(posts: seq<Post>, postId: int, wasLiked: bool): (r: seq<Post>)
    ensures LikeApplied(posts, r, postId, wasLiked)
  {
    seq(|posts|, i requires 0 <= i < |posts| => if posts[i].id == postId then LikeOne(posts[i], wasLiked) else posts[i])
  }

  /** `handleLike`: after the call succeeds, the same update on all three
      lists and on the open post when it is the liked one; on failure, or
      without a signed-in user, nothing changes. */
  function HandleLike(st: ProfileState, signedIn: bool, postId: int, wasLiked: bool, outcome: Call)
    : (r: ProfileState)
    ensures !signedIn || outcome.Fail? ==> r == st
    ensures signedIn && outcome.Ok? ==>
      && LikeApplied(st.posts, r.posts, postId, wasLiked)
      && LikeApplied(st.savedPosts, r.savedPosts, postId, wasLiked)
      && LikeApplied(st.likedPosts, r.likedPosts, postId, wasLiked)
      && r.fullPost.Some? == st.fullPost.Some?
      && (st.fullPost.Some? ==> LikeApplied([st.fullPost.value], [r.fullPost.value], postId, wasLiked))
  {
    if !signedIn || outcome.Fail? then st
    else
      var full := if st.fullPost.Some? && st.fullPost.value.id == postId
                  then Some(LikeOne(st.fullPost.value, wasLiked)) else st.fullPost;
      ProfileState(UpdateLikes(st.posts, postId, wasLiked), UpdateLikes(st.savedPosts, postId, wasLiked),
                   UpdateLikes(st.likedPosts, postId, wasLiked), full)
  }

  /** Every post with this id reads as not liked. */
  predicate UnlikedIn(posts: seq<Post>, postId: int) {
    forall i :: 0 <= i < |posts| && posts[i].id == postId ==> posts[i].isLiked == 0
  }

  /** Liking a post and then unliking it restores every list exactly. */
  lemma LikeThenUnlikeRestores(posts: seq<Post>, postId: int)
    requires UnlikedIn(posts, postId)
    ensures UpdateLikes(UpdateLikes(posts, postId, false), postId, true) == posts
  {
    var once := UpdateLikes(posts, postId, false);
    var twice := UpdateLikes(once, postId, true);
    forall i | 0 <= i < |posts|
      ensures twice[i] == posts[i]
    {
      if posts[i].id == postId {
        assert once[i] == LikeOne(posts[i], false);
      }
    }
  }

  // ---------------------------------------------------------------------------
  // Saves.

  /** The list-level contract of the save update: only `isSaved` of the posts
      with the id changes. */
  predicate SaveApplied(before: seq<Post>, after: seq<Post>, postId: int, wasSaved: bool) {
    && |after| == |before|
    && forall i :: 0 <= i < |before| ==>
         if before[i].id == postId then after[i] == before[i].(isSaved := if wasSaved then 0 else 1)
         else after[i] == before[i]
  }

  /** `updatePosts` of `handleSave`. */
  function UpdateSaves(posts: seq<Post>, postId: int, wasSaved: bool): (r: seq<Post>)
    ensures SaveApplied(posts, r, postId, wasSaved)
  {
    seq(|posts|, i requires 0 <= i < |posts| =>
      if posts[i].id == postId then posts[i].(isSaved := if wasSaved then 0 else 1) else posts[i])
  }

  /** `handleSave`, like `handleLike` but on `isSaved` only. The reload of the
      saved tab replaces the list from the server and is not a local change. */
  function HandleSave(st: ProfileState, signedIn: bool, postId: int, wasSaved: bool, outcome: Call)
    : (r: ProfileState)
    ensures !signedIn || outcome.Fail? ==> r == st
    ensures signedIn && outcome.Ok? ==>
      && SaveApplied(st.posts, r.posts, postId, wasSaved)
      && SaveApplied(st.savedPosts, r.savedPosts, postId, wasSaved)
      && SaveApplied(st.likedPosts, r.likedPosts, postId, wasSaved)
      && r.fullPost.Some? == st.fullPost.Some?
      && (st.fullPost.Some? ==> SaveApplied([st.fullPost.value], [r.fullPost.value], postId, wasSaved))
  {
    if !signedIn || outcome.Fail? then st
    else
      var full := if st.fullPost.Some? && st.fullPost.value.id == postId
                  then Some(st.fullPost.value.(isSaved := if wasSaved then 0 else 1)) else st.fullPost;
      ProfileState(UpdateSaves(st.posts, postId, wasSaved), UpdateSaves(st.savedPosts, postId, wasSaved),
                   UpdateSaves(st.likedPosts, postId, wasSaved), full)
  }

  /** Saving never touches likes: like flags and counts are the same in every list. */
  lemma SaveKeepsLikes(st: ProfileState, signedIn: bool, postId: int, wasSaved: bool, outcome: Call)
    ensures var r := HandleSave(st, signedIn, postId, wasSaved, outcome);
      && (forall i :: 0 <= i < |st.posts| ==>
            r.posts[i].isLiked == st.posts[i].isLiked && r.posts[i].likesCount == st.posts[i].likesCount)
      && (forall i :: 0 <= i < |st.savedPosts| ==>
            r.savedPosts[i].isLiked == st.savedPosts[i].isLiked
            && r.savedPosts[i].likesCount == st.savedPosts[i].likesCount)
      && (forall i :: 0 <= i < |st.likedPosts| ==>
            r.likedPosts[i].isLiked == st.likedPosts[i].isLiked
            && r.likedPosts[i].likesCount == st.likedPosts[i].likesCount)
  {
  }

  // ---------------------------------------------------------------------------
  // Following.

  /** The follow button's state and the shown user's follower count
      (`None` when the profile has no `followers_count`). */
  datatype FollowState = FollowState(isFollowing: bool, followersCount: Option<int>)

  /** `prev.followers_count || 0`. */
  function CountOrZero(c: Option<int>): int {
    if c.Some? then c.value else 0
  }

  /** `handleFollow`: after the call succeeds the flag flips and the count
      moves by one; nothing happens without both ids or on failure. */
  function HandleFollow(st: FollowState, idsPresent: bool, outcome: Call): (r: FollowState)
    ensures !idsPresent || outcome.Fail? ==> r == st
    ensures idsPresent && outcome.Ok? ==>
      && r.isFollowing == !st.isFollowing
      && r.followersCount.Some?
      && r.followersCount.value == CountOrZero(st.followersCount) + (if st.isFollowing then -1 else 1)
  {
    if !idsPresent || outcome.Fail? then st
    else if st.isFollowing then FollowState(false, Some(CountOrZero(st.followersCount) - 1))
    else FollowState(true, Some(CountOrZero(st.followersCount) + 1))
  }

  /** Following and then unfollowing restores the flag and the count (an
      absent count comes back as 0). */
  lemma FollowThenUnfollow(st: FollowState)
    requires !st.isFollowing
    ensures HandleFollow(HandleFollow(st, true, Ok), true, Ok) == FollowState(false, Some(CountOrZero(st.followersCount)))
  {
  }

  /** The count is not clamped: unfollowing at 0 shows -1. */
  lemma UnfollowAtZero()
    ensures HandleFollow(FollowState(true, None), true, Ok).followersCount == Some(-1)
  {
  }

  // ---------------------------------------------------------------------------
  // Tabs and picture selection.

  /** `getCurrentPosts`: the list the active tab shows. */
  function CurrentPosts(st: ProfileState, activeTab: string): (r: seq<Post>)
    ensures activeTab == "saved" ==> r == st.savedPosts
    ensures activeTab == "liked" ==> r == st.likedPosts
    ensures activeTab != "saved" && activeTab != "liked" ==> r == st.posts
  {
    match activeTab
    case "saved" => st.savedPosts
    case "liked" => st.likedPosts
    case _ => st.posts
  }

  /** `handleProfilePicSelect`: the alert shown (if any) and the selected file.
      A refused file leaves the previous selection in place. */
  function ProfilePicSelect(file: Option<FileInfo>, selected: Option<FileInfo>): (r: (Option<string>, Option<FileInfo>))
    ensures file.None? ==> r == (None, selected)
    ensures file.Some? ==> r.0 == ImageProblem(file.value)
    ensures r.1 != selected ==> file.Some? && r.1 == file && ImageProblem(file.value).None?
    ensures file.Some? && ImageProblem(file.value).None? ==> r.1 == file
  {
    if file.None? then (None, selected)
    else
      var problem := ImageProblem(file.value);
      if problem.Some? then (problem, selected) else (None, file)
  }
}

=== FILE: search.dfy ===
/** The user search page: the query guard, the result list, the bio
    preview and which of the four panels is shown. */
module Search {
  import opened Js
  import opened Outcomes

  /** One user of the search answer. */
  datatype UserHit = UserHit(id: Value, username: string, fullName: string, bio: string, isFollowing: int)

  datatype SearchState = SearchState(query: string, results: seq<UserHit>, loading: bool)

  /** The shortest trimmed query that is sent to the backend. */
  const MinQueryLength := 2

  /** `handleSearch`: the query typed (sent as typed) if a request is made,
      and the new state. The query is always stored; a query that is shorter
      than two characters once trimmed clears the results without a request;
      a failed request keeps the previous results. */
  function HandleSearch(st: SearchState, query: string, reply: Fetch<Option<seq<UserHit>>>)
    : (r: (Option<string>, SearchState))
    ensures r.1.query == query
    ensures r.0.None? <==> |Trim(query)| < MinQueryLength
    ensures r.0.None? ==> r.1 == st.(query := query, results := [])
    ensures r.0.Some? ==> r.0.value == query && !r.1.loading
    ensures r.0.Some? && reply.FetchFailed? ==> r.1.results == st.results
    ensures r.0.Some? && reply.Fetched? ==>
      r.1.results == if reply.value.Some? then reply.value.value else []
  {
    if |Trim(query)| < 2 then (None, st.(query := query, results := []))
    else match reply
      case FetchFailed(_) => (Some(query), SearchState(query, st.results, false))
      case Fetched(users) => (Some(query), SearchState(query, if users.Some? then users.value else [], false))
  }

  /** The bio under a result: hidden when empty, cut to 60 characters plus
      "..." when longer. */
  function BioPreview(bio: string): (r: Option<string>)
    ensures r.None? <==> bio == ""
    ensures r.Some? ==> |r.value| <= 63
    ensures 0 < |bio| <= 60 ==> r == Some(bio)
    ensures |bio| > 60 ==> r.Some? && r.value == bio[..60] + "..."
  {
    if bio == "" then None
    else if |bio| > 60 then Some(bio[..60] + "...")
    else Some(bio)
  }

  /** A preview never shows text that is not in the bio: it is the bio,
      or a prefix of it followed by the ellipsis. */
  lemma BioPreviewIsPrefix(bio: string)
    requires bio != ""
    ensures var p := BioPreview(bio).value;
      (p == bio) || (|p| == 63 && p[..60] == bio[..60] && p[60..] == "...")
  {
  }

  datatype ResultsView = Spinner | ResultList(users: seq<UserHit>) | NoUsersFound | Prompt

  /** The results area: spinner while loading, the list when there are
      results, "No users found" when the raw query has two characters or
      more, the search prompt otherwise. */
  function View(st: SearchState): (r: ResultsView)
    ensures r == Spinner <==> st.loading
    ensures r.ResultList? <==> !st.loading && |st.results| > 0
    ensures r.ResultList? ==> r.users == st.results
    ensures r == NoUsersFound <==> !st.loading && |st.results| == 0 && |st.query| >= MinQueryLength
  {
    if st.loading then Spinner
    else if |st.results| > 0 then ResultList(st.results)
    else if |st.query| >= 2 then NoUsersFound
    else Prompt
  }

  /** The guard trims but the panel does not: a space followed by one letter
      sends nothing and clears the list, yet shows "No users found" rather
      than the prompt. */
  lemma PaddedShortQuery(st: SearchState, reply: Fetch<Option<seq<UserHit>>>)
    requires !st.loading
    ensures var r := HandleSearch(st, " a", reply);
      r.0.None? && View(r.1) == NoUsersFound
  {
    assert !IsSpace('a');
    assert TrimStart("a") == "a";
    assert " a"[1..] == "a";
    assert TrimStart(" a") == "a";
    assert TrimEnd("a") == "a";
    assert Trim(" a") == "a";
  }
}

=== FILE: story.dfy ===
/** The story viewer: index navigation (manual and timed) that closes the
    viewer after the last story, the like counter, the comment append and
    the progress bar. */
module StoryModal {
  import opened Js
  import opened Outcomes

  datatype StoryComment = StoryComment(id: Value, username: string, profilePicture: Value,
                                       comment: string, createdAt: string)

  /** One story of the user's reel. `likesCount` is `None` when the field is
      absent; `comments` is `None` when the story carries no `comments` field. */
  datatype StoryItem = StoryItem(id: Value, isLiked: Value, likesCount: Option<int>,
                                 comments: Option<seq<StoryComment>>)

  datatype Viewer = Viewer(id: Value, username: string, profilePicture: Value)

  /** The viewer's local state. */
  datatype StoryView = StoryView(index: int, liked: bool, likeCount: int, showComments: bool,
                                 comments: seq<StoryComment>, draft: string)

  /** A navigation step either shows a (possibly new) state or closes the viewer. */
  datatype Step = Show(view: StoryView) | Close

  /** `stories[currentIndex]`, `undefined` outside the list. */
  function Current(stories: seq<StoryItem>, index: int): (r: Option<StoryItem>)
    ensures r.Some? <==> 0 <= index < |stories|
    ensures r.Some? ==> r.value == stories[index]
  {
    if 0 <= index < |stories| then Some(stories[index]) else None
  }

  // ---------------------------------------------------------------------------
  // Navigation.

  /** The index is a position of the story list. */
  predicate InRange(v: StoryView, count: int) {
    0 <= v.index < count
  }

  /** `goToPrevious`: steps back and hides the comments, except at the first story. */
  function GoToPrevious(v: StoryView): (r: StoryView)
    ensures v.index > 0 ==> r == v.(index := v.index - 1, showComments := false)
    ensures v.index <= 0 ==> r == v
  {
    if v.index > 0 then v.(index := v.index - 1, showComments := false) else v
  }

  /** `goToNext`: steps forward and hides the comments, or closes at the last story. */
  function GoToNext(v: StoryView, count: int): (r: Step)
    ensures r.Close? <==> v.index >= count - 1
    ensures r.Show? ==> r.view == v.(index := v.index + 1, showComments := false)
  {
    if v.index < count - 1 then Show(v.(index := v.index + 1, showComments := false)) else Close
  }

  /** The five-second timer: like `goToNext` but the comments panel stays as it is. */
  function AutoAdvance(v: StoryView, count: int): (r: Step)
    ensures r.Close? <==> v.index >= count - 1
    ensures r.Show? ==> r.view == v.(index := v.index + 1)
  {
    if v.index < count - 1 then Show(v.(index := v.index + 1)) else Close
  }

  /** Every navigation step from a valid index shows a valid index (or closes). */
  lemma NavigationKeepsIndexInRange(v: StoryView, count: int)
    requires InRange(v, count)
    ensures InRange(GoToPrevious(v), count)
    ensures GoToNext(v, count).Show? ==> InRange(GoToNext(v, count).view, count)
    ensures AutoAdvance(v, count).Show? ==> InRange(AutoAdvance(v, count).view, count)
  {
  }

  /** Forward then back returns to the same story (with the comments hidden). */
  lemma NextThenPrevious(v: StoryView, count: int)
    requires InRange(v, count) && v.index < count - 1
    ensures GoToNext(v, count).Show?
    ensures GoToPrevious(GoToNext(v, count).view) == v.(showComments := false)
  {
  }

  /** `k` ticks of the timer, stopping at the first close. */
  function AutoRun(v: StoryView, count: int, k: nat): Step
    decreases k
  {
    if k == 0 then Show(v)
    else match AutoAdvance(v, count)
      case Close => Close
      case Show(w) => AutoRun(w, count, k - 1)
  }

  /** Left alone, the viewer shows story `index + k` after `k` ticks while
      there is one, and has closed once the ticks run past the last story. */
  lemma {:induction false} AutoRunReachesEnd(v: StoryView, count: int, k: nat)
    requires InRange(v, count)
    ensures v.index + k < count ==> AutoRun(v, count, k) == Show(v.(index := v.index + k))
    ensures v.index + k >= count ==> AutoRun(v, count, k) == Close
    decreases k
  {
    if k > 0 {
      if v.index < count - 1 {
        var w := v.(index := v.index + 1);
        AutoRunReachesEnd(w, count, k - 1);
        assert w.(index := w.index + (k - 1)) == v.(index := v.index + k);
      }
    }
  }

  // ---------------------------------------------------------------------------
  // The story-change effect.

  /** On a change of story: the like flag and count are reloaded from the
      story, the comments only when the story carries a `comments` field. */
  function OnStoryChange(v: StoryView, stories: seq<StoryItem>): (r: StoryView)
    ensures Current(stories, v.index).None? ==> r == v
    ensures Current(stories, v.index).Some? ==>
      var s := stories[v.index];
      && r.liked == Truthy(s.isLiked)
      && (r.likeCount == if s.likesCount.Some? then s.likesCount.value else 0)
      && (r.comments == if s.comments.Some? then s.comments.value else v.comments)
      && r.(liked := v.liked, likeCount := v.likeCount, comments := v.comments) == v
  {
    match Current(stories, v.index)
    case None => v
    case Some(s) =>
      var count := if s.likesCount.Some? && s.likesCount.value != 0 then s.likesCount.value else 0;
      var comments := if s.comments.Some? then s.comments.value else v.comments;
      v.(liked := Truthy(s.isLiked), likeCount := count, comments := comments)
  }

  // ---------------------------------------------------------------------------
  // Likes.

  /** `handleLike`: toggles the flag after the call succeeds; unliking never
      takes the count below zero. */
  function Like(v: StoryView, stories: seq<StoryItem>, viewer: Option<Viewer>, outcome: Call): (r: StoryView)
    ensures viewer.None? || Current(stories, v.index).None? || outcome.Fail? ==> r == v
    ensures r != v ==> outcome.Ok? && r.liked == !v.liked
    ensures r.(liked := v.liked, likeCount := v.likeCount) == v
    ensures v.likeCount >= 0 ==> r.likeCount >= 0
    ensures outcome.Ok? && viewer.Some? && Current(stories, v.index).Some? ==>
      && r.liked == !v.liked
      && (v.liked ==> r.likeCount == if v.likeCount > 0 then v.likeCount - 1 else 0)
      && (!v.liked ==> r.likeCount == v.likeCount + 1)
  {
    if viewer.None? || Current(stories, v.index).None? then v
    else if outcome.Fail? then v
    else if v.liked then v.(liked := false, likeCount := Max(0, v.likeCount - 1))
    else v.(liked := true, likeCount := v.likeCount + 1)
  }

  function Max(a: int, b: int): int {
    if a >= b then a else b
  }

  /** A successful like followed by a successful unlike restores the state. */
  lemma LikeThenUnlike(v: StoryView, stories: seq<StoryItem>, viewer: Viewer)
    requires !v.liked && v.likeCount >= 0 && Current(stories, v.index).Some?
    ensures Like(Like(v, stories, Some(viewer), Ok), stories, Some(viewer), Ok) == v
  {
  }

  // ---------------------------------------------------------------------------
  // Comments.

  datatype StoryCommentRequest = StoryCommentRequest(userId: Value, storyId: Value, comment: string)

  /** The `success` flag and new id of the comment endpoint's answer. */
  datatype CommentReply = CommentReply(success: bool, commentId: Value)

  /** `handleSendComment`: the request sent (if any) and the new state.
      `now` is the ISO timestamp of the moment of sending. */
  function SendComment(v: StoryView, stories: seq<StoryItem>, viewer: Option<Viewer>,
                       reply: Fetch<CommentReply>, now: string): (r: (Option<StoryCommentRequest>, StoryView))
    ensures r.0.None? <==> AllSpace(v.draft) || viewer.None? || Current(stories, v.index).None?
    ensures r.0.Some? ==> r.0.value == StoryCommentRequest(viewer.value.id, stories[v.index].id, Trim(v.draft))
                          && r.0.value.comment != ""
    ensures r.0.None? || reply.FetchFailed? || !reply.value.success ==> r.1 == v
    ensures r.0.Some? && reply.Fetched? && reply.value.success ==>
      && r.1 == v.(comments := r.1.comments, draft := "")
      && |r.1.comments| == |v.comments| + 1
      && r.1.comments[..|v.comments|] == v.comments
      && r.1.comments[|v.comments|] == StoryComment(reply.value.commentId, viewer.value.username,
                                                    viewer.value.profilePicture, Trim(v.draft), now)
  {
    if Trim(v.draft) == "" || viewer.None? || Current(stories, v.index).None? then (None, v)
    else
      var text := Trim(v.draft);
      var req := StoryCommentRequest(viewer.value.id, stories[v.index].id, text);
      match reply
      case FetchFailed(_) => (Some(req), v)
      case Fetched(answer) =>
        if answer.success then
          var c := StoryComment(answer.commentId, viewer.value.username, viewer.value.profilePicture, text, now);
          (Some(req), v.(comments := v.comments + [c], draft := ""))
        else (Some(req), v)
  }

  // ---------------------------------------------------------------------------
  // Progress bar.

  datatype Segment = Seen | Active | Pending

  function SegmentStatus(position: int, current: int): Segment {
    if position == current then Active else if position < current then Seen else Pending
  }

  /** One segment per story. */
  function ProgressBar(count: nat, current: int): (bar: seq<Segment>)
    ensures |bar| == count
  {
    seq(count, i => SegmentStatus(i, current))
  }

  /** At a valid index the bar has the seen stories as a prefix of length
      `current`, exactly one active segment, and the rest pending. */
  lemma ProgressBarShape(count: nat, current: int)
    requires 0 <= current < count
    ensures var bar := ProgressBar(count, current);
      && bar[current] == Active
      && (forall i :: 0 <= i < count && i != current ==> bar[i] != Active)
      && (forall i :: 0 <= i < current ==> bar[i] == Seen)
      && (forall i :: current < i < count ==> bar[i] == Pending)
  {
  }
}

=== FILE: time.dfy ===
/** The two relative-time formatters. Both take the elapsed time `now - date`
    in milliseconds; `None` stands for an unparsable date, whose difference
    is `NaN` and fails every comparison. The locale-formatted dates and times
    of day are left to the browser and appear here only as buckets. */
module TimeUtils {
  import opened Js

  // ---------------------------------------------------------------------------
  // Integer division facts (Dafny's `/` on a positive divisor is `Math.floor`).

  lemma MulSign(d: int, m: int)
    requires d > 0
    ensures m >= 1 ==> d * m >= d
    ensures m >= 0 ==> d * m >= 0
    ensures m <= 0 ==> d * m <= 0
    ensures m <= -1 ==> d * m <= -d
  {
  }

  lemma DivBelow(x: int, d: int, k: int)
    requires d > 0
    ensures x / d < k <==> x < k * d
  {
    var q, r := x / d, x % d;
    assert x == d * q + r && 0 <= r < d;
    assert d * (k - q) == d * k - d * q;
    MulSign(d, k - q);
  }

  lemma DivUnique(x: int, d: int, q: int, r: int)
    requires d > 0 && x == d * q + r && 0 <= r < d
    ensures x / d == q
  {
    var q', r' := x / d, x % d;
    assert d * (q - q') == r' - r;
    MulSign(d, q - q');
  }

  lemma DivDiv(x: int, a: int, b: int)
    requires a > 0 && b > 0
    ensures (x / a) / b == x / (a * b)
  {
    var q1, r1 := x / a, x % a;
    var q2, r2 := q1 / b, q1 % b;
    assert x == a * q1 + r1;
    assert q1 == b * q2 + r2;
    assert a * q1 == (a * b) * q2 + a * r2;
    MulSign(a, r2);
    MulSign(a, b - 1 - r2);
    assert a * (b - 1 - r2) == a * b - a - a * r2;
    DivUnique(x, a * b, q2, a * r2 + r1);
  }

  lemma DivMonotone(x: int, y: int, d: int)
    requires d > 0 && x <= y
    ensures x / d <= y / d
  {
    var qx, rx := x / d, x % d;
    var qy, ry := y / d, y % d;
    assert d * (qx - qy) == (x - rx) - (y - ry);
    MulSign(d, qx - qy);
  }

  // ---------------------------------------------------------------------------
  // `formatTimeAgo`

  /** The buckets of `formatTimeAgo`; `CalendarDate` is the "Mon D" fallback. */
  datatype TimeAgo = JustNow | MinutesAgo(n: int) | HoursAgo(n: int) | DaysAgo(n: int)
                   | WeeksAgo(n: int) | CalendarDate

  const SecondsPerMinute := 60
  const SecondsPerHour := 3600
  const SecondsPerDay := 86400
  const SecondsPerWeek := 604800
  /** Four weeks: from here on the absolute date is shown. */
  const SecondsPerFourWeeks := 2419200

  /** `Math.floor((now - date) / 1000)`. */
  function ElapsedSeconds(elapsedMs: int): int {
    elapsedMs / 1000
  }

  /** `formatTimeAgo`, step by step as the source computes it. */
  function FormatTimeAgo(elapsedMs: Option<int>): (r: TimeAgo)
    ensures elapsedMs.None? ==> r == CalendarDate
    ensures elapsedMs.Some? ==>
      var s := ElapsedSeconds(elapsedMs.value);
      && (r == JustNow <==> s < SecondsPerMinute)
      && (r.MinutesAgo? <==> SecondsPerMinute <= s < SecondsPerHour)
      && (r.HoursAgo? <==> SecondsPerHour <= s < SecondsPerDay)
      && (r.DaysAgo? <==> SecondsPerDay <= s < SecondsPerWeek)
      && (r.WeeksAgo? <==> SecondsPerWeek <= s < SecondsPerFourWeeks)
      && (r == CalendarDate <==> SecondsPerFourWeeks <= s)
      && (r.MinutesAgo? ==> r.n == s / SecondsPerMinute && 1 <= r.n <= 59)
      && (r.HoursAgo? ==> r.n == s / SecondsPerHour && 1 <= r.n <= 23)
      && (r.DaysAgo? ==> r.n == s / SecondsPerDay && 1 <= r.n <= 6)
      && (r.WeeksAgo? ==> r.n == s / SecondsPerWeek && 1 <= r.n <= 3)
  {
    if elapsedMs.None? then CalendarDate
    else
      var seconds := ElapsedSeconds(elapsedMs.value);
      TimeAgoBuckets(seconds);
      if seconds < 60 then JustNow
      else
        var minutes := seconds / 60;
        if minutes < 60 then MinutesAgo(minutes)
        else
          var hours := minutes / 60;
          if hours < 24 then HoursAgo(hours)
          else
            var days := hours / 24;
            if days < 7 then DaysAgo(days)
            else
              var weeks := days / 7;
              if weeks < 4 then WeeksAgo(weeks)
              else CalendarDate
  }

  /** The chained floors of the source are floors of the seconds. */
  lemma TimeAgoBuckets(s: int)
    ensures s / 60 < 60 <==> s < SecondsPerHour
    ensures (s / 60) / 60 == s / SecondsPerHour
    ensures s / SecondsPerHour < 24 <==> s < SecondsPerDay
    ensures ((s / 60) / 60) / 24 == s / SecondsPerDay
    ensures s / SecondsPerDay < 7 <==> s < SecondsPerWeek
    ensures (((s / 60) / 60) / 24) / 7 == s / SecondsPerWeek
    ensures s / SecondsPerWeek < 4 <==> s < SecondsPerFourWeeks
    ensures s >= 60 ==> s / 60 >= 1
    ensures s >= SecondsPerHour ==> s / SecondsPerHour >= 1
    ensures s >= SecondsPerDay ==> s / SecondsPerDay >= 1
    ensures s >= SecondsPerWeek ==> s / SecondsPerWeek >= 1
  {
    DivBelow(s, 60, 60);
    DivDiv(s, 60, 60);
    DivBelow(s, 3600, 24);
    DivDiv(s, 3600, 24);
    DivBelow(s, 86400, 7);
    DivDiv(s, 86400, 7);
    DivBelow(s, 604800, 4);
    DivBelow(s, 60, 1);
    DivBelow(s, 3600, 1);
    DivBelow(s, 86400, 1);
    DivBelow(s, 604800, 1);
  }

  /** The position of a bucket from the most recent to the oldest. */
  function Rank(t: TimeAgo): nat {
    match t
    case JustNow => 0
    case MinutesAgo(_) => 1
    case HoursAgo(_) => 2
    case DaysAgo(_) => 3
    case WeeksAgo(_) => 4
    case CalendarDate => 5
  }

  /** A larger elapsed time never lands in a more recent bucket, and within
      one bucket it never shows a smaller number. */
  lemma TimeAgoMonotone(a: int, b: int)
    requires a <= b
    ensures Rank(FormatTimeAgo(Some(a))) <= Rank(FormatTimeAgo(Some(b)))
    ensures var ra, rb := FormatTimeAgo(Some(a)), FormatTimeAgo(Some(b));
      Rank(ra) == Rank(rb) && !ra.JustNow? && !ra.CalendarDate? ==> ra.n <= rb.n
  {
    DivMonotone(a, b, 1000);
    var sa, sb := a / 1000, b / 1000;
    DivMonotone(sa, sb, SecondsPerMinute);
    DivMonotone(sa, sb, SecondsPerHour);
    DivMonotone(sa, sb, SecondsPerDay);
    DivMonotone(sa, sb, SecondsPerWeek);
  }

  /** The buckets shown as a number followed by a unit letter. */
  predicate Relative(t: TimeAgo) {
    t.MinutesAgo? || t.HoursAgo? || t.DaysAgo? || t.WeeksAgo?
  }

  function UnitLetter(t: TimeAgo): char
    requires Relative(t)
  {
    if t.MinutesAgo? then 'm' else if t.HoursAgo? then 'h' else if t.DaysAgo? then 'd' else 'w'
  }

  /** The text shown; `calendarText` is the browser's "Mon D" rendering. A
      relative bucket reads as the decimal number, the unit letter and " ago". */
  function TimeAgoText(t: TimeAgo, calendarText: string): (r: string)
    ensures t.JustNow? ==> r == "Just now"
    ensures t.CalendarDate? ==> r == calendarText
    ensures Relative(t) ==>
      && |r| >= 5
      && r[..|r| - 5] == IntToString(t.n)
      && r[|r| - 5] == UnitLetter(t)
      && r[|r| - 4..] == " ago"
  {
    if Relative(t) then
      var digits := IntToString(t.n);
      var text := digits + [UnitLetter(t)] + " ago";
      assert text[..|digits|] == digits;
      text
    else if t.JustNow? then "Just now"
    else calendarText
  }

  /** The relative texts can be read back: distinct relative buckets never
      show the same text. */
  lemma TimeAgoTextInjective(a: TimeAgo, b: TimeAgo, calendarText: string)
    requires Relative(a) && Relative(b)
    requires TimeAgoText(a, calendarText) == TimeAgoText(b, calendarText)
    ensures a == b
  {
    IntToStringInjective(a.n, b.n);
  }

  // ---------------------------------------------------------------------------
  // `formatMessageTime` (and the identical `formatTime` of the Messages page)

  datatype MessageTime = RecentlyNow | TimeOfDay | Yesterday | MessageDate

  const MsPerHour := 3600000
  const MsPerDay := 86400000
  const MsPerTwoDays := 172800000

  /** `formatMessageTime`, computed as the source does, on the real number of hours. */
  function FormatMessageTime(elapsedMs: Option<int>): (r: MessageTime)
    ensures elapsedMs.None? ==> r == MessageDate
    ensures elapsedMs.Some? ==>
      var ms := elapsedMs.value;
      && (r == RecentlyNow <==> ms < MsPerHour)
      && (r == TimeOfDay <==> MsPerHour <= ms < MsPerDay)
      && (r == Yesterday <==> MsPerDay <= ms < MsPerTwoDays)
      && (r == MessageDate <==> MsPerTwoDays <= ms)
  {
    if elapsedMs.None? then MessageDate
    else
      var hours: real := elapsedMs.value as real / (1000 * 60 * 60) as real;
      if hours < 1.0 then RecentlyNow
      else if hours < 24.0 then TimeOfDay
      else if hours < 48.0 then Yesterday
      else MessageDate
  }

  function MessageRank(t: MessageTime): nat {
    match t
    case RecentlyNow => 0
    case TimeOfDay => 1
    case Yesterday => 2
    case MessageDate => 3
  }

  /** A larger elapsed time never lands in a more recent message bucket. */
  lemma MessageTimeMonotone(a: int, b: int)
    requires a <= b
    ensures MessageRank(FormatMessageTime(Some(a))) <= MessageRank(FormatMessageTime(Some(b)))
  {
  }
}
